=== FILE: README.md ===
# Asteroids sprite managers in Dafny

The game exists in two implementations, Rust and TypeScript. This project
models the gameplay bookkeeping at the core of both, together with the
asteroid ("potatoid") break-up rule of the Rust one.

- **Potatoid.** An asteroid is a sprite with an irregular outline. When a laser
  shoots it, it breaks into two or three smaller children, or it is destroyed
  when it is small enough.
- **Sprite managers.** Each manager owns the asteroids, the player's ship and
  its fragments after a crash, the UFOs and the explosions. It runs the
  per-frame update, the level operations, the spawning routines and the key
  handlers.
  - The Rust `SpriteManager` walks its asteroids, UFOs and explosions by
    index in reverse. It removes elements in place and appends break-up
    children while it walks. Ship fragments are stepped front to back.
  - The TypeScript `SpritesManager` runs a `filter` over its asteroids, UFOs
    and explosions. Ship fragments are stepped with a plain loop. A null ship
    field means the ship was destroyed.

Modules:

- `Geometry`, `Random`, `Steering`: the plane values, unit random draws and
  the ship control state both games share.
- `Potatoids`: the Rust asteroid: construction, outline, update, collision
  delegation and break-up. Also the number of hits needed to clear an
  asteroid and its descendants.
- `Actors`, `RustManager`, `RustFrame`: the Rust manager.
  - `Actors` holds its other sprites, plus the code it calls that is not
    modelled here, as a bundle of supplied functions.
  - `RustManager` holds the state transitions.
  - `RustFrame` holds the update.
- `TsActors`, `TsManager`, `TsFrame`: the same three layers for the
  TypeScript manager.

Design choices:

- **Managers are values.** Each manager is an immutable datatype. Each
  operation is a function or method that returns the next state.
- **Update passes are loops.** The asteroid, UFO and explosion passes of each
  update are methods whose loops follow the source's iteration: reverse index
  walk in Rust, front-to-back filter in TypeScript. Each is proved equal to a
  recursive reference definition that states which elements survive, what is spawned and how the
  counters move. Separate lemmas then prove the accounting properties of those
  reference definitions.
- **Randomness is a parameter.** Every draw from a random generator is a
  parameter. A uniform draw from `[lo, hi)` is `lo + u·(hi − lo)` for a unit
  draw `u` in `[0, 1)`. The integer version takes the floor of `u·(hi − lo)`.
  Random vectors (`random_limit`, `random2D`, the ring direction) are opaque
  vectors.
- **Unseen collaborators are supplied functions.** This covers sprite, ship,
  UFO and explosion stepping; collision and laser tests; ship break-up; the
  TypeScript patatoid break-up; and the UFO timer.
- **Rust panics become preconditions.** Rust's `gen_range` panics on an empty
  range. That is why `CreateAsteroids` requires a canvas of positive height
  when asteroids are to be made, and why a potatoid with sides requires a
  positive diameter.

## Model

| member | source | states |
|---|---|---|
| Potatoids.GenerateVertices | rust/src/sprites/potatoid.rs:66-77 | the outline has exactly `sides` vertices; the k-th is at angle step k and its radius lies in [0.35·d, 0.5·d) for diameter d |
| Potatoids.New | rust/src/sprites/potatoid.rs:54-64 | the constructor keeps the side count and the sprite data, and generates an outline as above |
| Potatoids.Update | rust/src/sprites/potatoid.rs:21-23 | update delegates to the sprite's own step; the side count and outline are unchanged |
| Potatoids.CollisionIgnoresOutline | rust/src/sprites/potatoid.rs:48-50 | collision delegates to the sprite: two potatoids on the same sprite collide with anything alike, whatever their outlines |
| Potatoids.CollideWith | rust/src/sprites/potatoid.rs:48-50 | the collision test is the sprite's own test on the asteroid's sprite; the outline plays no part |
| Potatoids.ChildDiameter | rust/src/sprites/potatoid.rs:92 | a child's diameter is the parent's over count × 0.8: d/1.6 for two children, d/2.4 for three; it is positive and at most d/1.6 |
| Potatoids.BreakUp | rust/src/sprites/potatoid.rs:79-100 | no children exactly when d ≤ 60; otherwise 3 children when d > 110 and 2 when it is not. Each child copies the parent's sides, canvas, position, rotation and rotation step, with diameter d/(count·0.8), the drawn velocity and a fresh outline. Each child is strictly smaller than the parent. |
| Potatoids.BreakUpHitsToClear | rust/src/sprites/potatoid.rs:79-100 | repeated break-up terminates: clearing an asteroid takes one hit plus the hits that clear each of its children |
| Potatoids.HitsToClearSpawned | rust/src/sprites/potatoid.rs:83-92 | an asteroid of a spawnable diameter [40,120) is cleared in 1 hit (d ≤ 60), 3 (60 < d ≤ 96), 7 (96 < d ≤ 110) or 4 (d > 110) |
| RustManager.SpawnAsteroid | rust/src/sprite_manager.rs:192-228 | a spawned asteroid has diameter in [40,120), sides in [8,20), rotation 0, rotation step exactly ±0.01, the drawn velocity and a valid outline |
| RustManager.CreateAsteroids | rust/src/sprite_manager.rs:189-230 | the asteroid sequence is replaced by exactly `count` spawned asteroids, the i-th from the i-th draw; nothing else changes |
| RustManager.New | rust/src/sprite_manager.rs:36-73 | inactive ship at the centre with zero velocity, zero hit counters, no fragments, UFOs or explosions, exactly 20 spawned asteroids |
| RustManager.KeyPressed | rust/src/sprite_manager.rs:75-83 | "ArrowUp" starts the thrust, "ArrowLeft"/"ArrowRight" set rotation −0.1/0.1, " " requests a shot; any other key changes nothing; only the ship's controls change |
| RustManager.KeyReleased | rust/src/sprite_manager.rs:85-92 | "ArrowUp" stops the thrust, either side arrow stops the rotation; releasing " " or any other key changes nothing |
| RustManager.PressReleaseRestores | rust/src/sprite_manager.rs:75-92 | pressing and then releasing a steering key from rest restores the manager |
| RustManager.CreateUfo | rust/src/sprite_manager.rs:232-255 | records the shoot frequency and appends exactly one UFO. The UFO has zero diameter, rotation and rotation step, and the drawn velocity. Its position is the drawn jitter shifted by one canvas width or height to the right, left, down or up. |
| RustManager.EveryEdgeReachable | rust/src/sprite_manager.rs:232-255 | for each of the four shifts (right, left, down, up) some corner number in 1..4 makes `create_ufo` place the new UFO at the jitter plus that shift |
| RustManager.GetAsteroidsCount | rust/src/sprite_manager.rs:257-259 | the number of asteroids on the field, zero exactly when the field is empty |
| RustManager.Reset | rust/src/sprite_manager.rs:305-309 | clears asteroids and fragments; UFOs, explosions and everything else are kept |
| RustManager.StopLevel | rust/src/sprite_manager.rs:297-303 | empties the UFOs, cancels the UFO timer, zeroes the shoot frequency and both hit counters; asteroids and the rest are kept |
| RustManager.ResetStopLevelCommute | rust/src/sprite_manager.rs:297-309 | reset and stop_level commute, and each is idempotent |
| RustManager.StartLevel | rust/src/sprite_manager.rs:269-295 | ship active, centred, zero velocity, heading −π/2; fragments cleared; exactly `count_asteroids` spawned asteroids; UFO timer armed with the new frequency while the stored `ufo_create_frequency` field stays as it was; everything else, UFOs, explosions, counters and canvases included, carried over |
| RustFrame.UpdateFragments | rust/src/sprite_manager.rs:99-103 | every fragment is stepped once, in place |
| RustFrame.AsteroidPassAccounting | rust/src/sprite_manager.rs:105-126 | survivors plus hits make up the walked asteroids; each hit gives one explosion or a split; a split adds 2 or 3 children |
| RustFrame.VisitAsteroid | rust/src/sprite_manager.rs:106-125 | one reverse-walk step leaves the walked suffix in its reference form and the unvisited prefix in place |
| RustFrame.AsteroidPass | rust/src/sprite_manager.rs:105-126 | the result is the survivors followed by the children, which are not visited in this frame. The hit counter rises by exactly the number of hits, and explosions gain one per childless hit. The laser test is not gated on the ship; a body collision deactivates it only while it is active and replaces the fragments. |
| RustFrame.SweepUfosCons | rust/src/sprite_manager.rs:128-148 | the back-to-front reading of the UFO pass equals visiting the lowest index last |
| RustFrame.SweepUfosAccounting | rust/src/sprite_manager.rs:128-148 | kept UFOs plus hits make up the walked UFOs, with one explosion per hit; with the ship inactive no UFO is removed and nothing is counted |
| RustFrame.VisitUfo | rust/src/sprite_manager.rs:129-147 | one reverse-walk step of the UFO pass preserves the walk's reference form |
| RustFrame.UfoPass | rust/src/sprite_manager.rs:128-148 | the UFOs become the reference's kept UFOs; explosions and the UFO counter grow by one per hit; the ship is deactivated and fragments replaced on a body or UFO-laser contact |
| RustFrame.FreshNotFaded | rust/src/sprite_manager.rs:154-160 | no explosion left by the pass is faded |
| RustFrame.ExplosionPass | rust/src/sprite_manager.rs:154-160 | each explosion is stepped and the faded ones are removed, in order |
| RustFrame.Update | rust/src/sprite_manager.rs:94-161 | the ship steps only while active and, once inactive, stays inactive. The hit counter grows by the asteroid hits, at most one per asteroid. With an inactive ship no UFO is removed or counted: the first UFOs are the old ones, each stepped. At most one UFO is spawned and no faded explosion remains. |
| TsActors.Bump | typescript/src/sprites/sprites-manager.ts:58 | `++` adds one to a count, and turns an undefined or NaN counter into NaN |
| TsManager.New | typescript/src/sprites/sprites-manager.ts:15-30 | empty collections, no ship (undefined), no UFO timer, undefined counters |
| TsManager.SpawnPatatoid | typescript/src/sprites/sprites-manager.ts:163-196 | diameter in [40,120), rotation step in [−0.01,0.01), integer sides in [8,20), the drawn position and direction |
| TsManager.CreateAsteroids | typescript/src/sprites/sprites-manager.ts:159-198 | the sequence is replaced by exactly `count` spawned asteroids (none for a negative count), so `getAsteroidsCount` returns `count` |
| TsManager.DrawnSide | typescript/src/sprites/sprites-manager.ts:201 | `floor(random(4))` is one of 0..3 |
| TsManager.CreateUfoAsWritten | typescript/src/sprites/sprites-manager.ts:200-221 | appends exactly one UFO; its random vector is either unshifted or shifted right, left or down, never up |
| TsManager.CreateUfoAsWrittenMissesEdges | typescript/src/sprites/sprites-manager.ts:201-217 | side 0 falls through the switch, leaving the UFO unshifted, and case 4 is never taken |
| TsManager.CreateUfo | typescript/src/sprites/sprites-manager.ts:200-221 | the corrected routine: with sides numbered 1..4, the one appended UFO's random vector is always shifted by one canvas width or height to the right, left, down or up |
| TsManager.CreateUfoReachesEveryEdge | typescript/src/sprites/sprites-manager.ts:204-217 | each of the four shifts (right, left, down, up) is chosen by some unit draw |
| TsManager.Reset | typescript/src/sprites/sprites-manager.ts:267-273 | clears asteroids, fragments and UFOs and sets both counters to 0; ship, explosions and the timer are kept |
| TsManager.StopLevel | typescript/src/sprites/sprites-manager.ts:153-157 | drops the UFO timer, zeroes the shoot frequency and empties the UFOs; counters and everything else are kept |
| TsManager.ResetStopLevelCommute | typescript/src/sprites/sprites-manager.ts:153-273 | stopLevel and reset commute, and each is idempotent |
| TsManager.AsteroidsCount | typescript/src/sprites/sprites-manager.ts:223-225 | the number of asteroids on the field, zero exactly when the field is empty |
| TsManager.UfosCount | typescript/src/sprites/sprites-manager.ts:227-229 | the number of UFOs flying, zero exactly when there are none |
| TsManager.StartLevel | typescript/src/sprites/sprites-manager.ts:128-151 | live ship at the centre, so shipHit is false. Fragments and UFOs are cleared, counters are 0 and explosions carry over. There are exactly `countAsteroids` spawned asteroids, and the timer period is within 5000 of the requested frequency. |
| TsManager.KeyPressed | typescript/src/sprites/sprites-manager.ts:231-248 | with a live ship: left/right arrows set rotation −0.1/0.1, up starts the thrust, space shoots; with no live ship, or any other key, nothing changes |
| TsManager.KeyReleased | typescript/src/sprites/sprites-manager.ts:250-261 | with a live ship: up stops the thrust, either side arrow stops the rotation; otherwise nothing changes |
| TsManager.PressReleaseRestores | typescript/src/sprites/sprites-manager.ts:231-265 | press then release of a steering key from rest restores the manager; once shipHit holds, no key does anything |
| TsManager.ShipHit | typescript/src/sprites/sprites-manager.ts:263-265 | true exactly when the ship field is null (destroyed); an undefined field before the first level and a live ship are not hits |
| TsFrame.SweepAsteroidsAccounting | typescript/src/sprites/sprites-manager.ts:41-72 | every asteroid is kept or counted as a hit, with at most one explosion per hit. With no live ship the filter only steps. The ship can only go from alive to destroyed. |
| TsFrame.SweepAsteroidsKeepsOrder | typescript/src/sprites/sprites-manager.ts:43-70 | the surviving asteroids keep their relative order |
| TsFrame.VisitAsteroid | typescript/src/sprites/sprites-manager.ts:43-70 | one filter callback keeps the settled part plus the reference reading of the rest equal to the whole |
| TsFrame.AsteroidPass | typescript/src/sprites/sprites-manager.ts:41-72 | the result is the survivors followed by the collected, unstepped children. Each hit adds one explosion or its children and increments the counter once. A collision nulls the ship and replaces the fragments. |
| TsFrame.SweepUfosAccounting | typescript/src/sprites/sprites-manager.ts:74-95 | every UFO is kept or counted as a hit with exactly one explosion; with no live ship UFOs only drift and nothing is counted |
| TsFrame.VisitUfo | typescript/src/sprites/sprites-manager.ts:74-95 | one filter callback keeps the settled part plus the reference reading of the rest equal to the whole |
| TsFrame.UfoPass | typescript/src/sprites/sprites-manager.ts:74-95 | the UFOs become the kept ones, each hit pushes one explosion and increments the counter once, and a contact or UFO laser nulls the ship |
| TsFrame.LastingExactly | typescript/src/sprites/sprites-manager.ts:101-103 | an explosion is retained exactly when it is the updated form of one whose update returned true |
| TsFrame.ExplosionPass | typescript/src/sprites/sprites-manager.ts:101-103 | the explosions become the reference filter of their updates |
| TsFrame.FrameShip | typescript/src/sprites/sprites-manager.ts:33-39 | a live ship steps; otherwise (null or undefined) the fragments step |
| TsFrame.Update | typescript/src/sprites/sprites-manager.ts:32-104 | fragments step only without a live ship and are replaced by the break-up of a destroyed one. Survivors keep their order, with children appended. Counters only rise while the ship is alive and are set whenever a ship was placed. When the timer exists and has elapsed, whatever the ship's state, the last UFO is the one `createUfo` as written makes (see Findings); otherwise no UFO is added. shipHit stays true once true. |

## Left out

- Drawing (`draw` methods, canvas and p5 rendering): has no effect on game state.
- Trigonometry and floating point.
  - Vertex coordinates are kept in polar form (index and radius).
  - The asteroid ring direction, the TypeScript `setMag` clamp of spawn positions and the ship's heading arithmetic are opaque vectors or plain reals.
  - No IEEE rounding is modelled.
- Randomness: `rand::thread_rng`, `random`, `Vector::random_limit`, `Vector::random`, `p5.random` and `P5.Vector.random2D` become unit draws or opaque vectors passed in by the caller.
- Unseen collaborators are supplied functions, not definitions.
  - The Rust side covers `Sprite::update`, `Ship::update`/`collide_with`/`lasers_collide_with`/`break_up`, `Ufo::update`/`lasers_collide_with`, `Explosion::update` and `is_faded`, and `Interval::is_ellapsed`.
  - The TypeScript side covers `Patatoid.update`/`breakUp`, `Ship.update`/`lasersHit`/`collideWith`/`breakUp`, `Ufo.update`/`lasersHit` and `Explosion.update`.
  - These are treated as pure, so a laser that is spent by a hit is not modelled.
- The key handlers' effect on the ship (`set_boost`, `set_rotation`, `shoot`, and their TypeScript counterparts) is recorded as control state. The ship's own reaction, such as spawning lasers, is left out.
- UFO timer timing: `Interval::set`/`cancel` are modelled as the timer's state, and `isElapsed` is a supplied answer. `pause`/`unpause` are left out: they do nothing in Rust and delegate to unseen timers in TypeScript.
- RustManager.New: `Ship::new` is not part of this model; the ship is assumed to start with heading 0 and idle controls.
- RustManager.CreateUfo: the tracked ship position of a new UFO starts at the origin, because `Ufo::new` is not part of this model. The pass overwrites it before every UFO update.
- RustFrame.Update: `count_asteroids_hit` and `count_ufo_hit` are unbounded; the u32 overflow of `+= 1` is not modelled.
- TsManager.CreateAsteroids: `count` is taken as a whole number; a fractional count, which would make one more asteroid, is not modelled.
- TsManager.StartLevel: the third argument of `new Ship(...)` is not interpreted; the new ship starts with idle controls.
- `Potatoid::break_up` takes `&self`. The model's break-up is a pure function of a value, so the parent is unchanged by construction and no separate statement is made.
- The Rust source reads a sprite's state as `sprite.sprite_data` in potatoid.rs and as `sprite.data` in sprite_manager.rs. Both are one field in the model.

## Findings

| source | as written | input that shows it | evidently intended | confidence | as-written member | corrected member |
|---|---|---|---|---|---|---|
| typescript/src/sprites/sprites-manager.ts:201-217 | `floor(random(4))` yields 0..3 but the switch handles 1..4. Side 0 falls through, so the UFO gets no shift and stays at the random unit vector, next to the top-left corner. Case 4, the upward shift, is never used. | a side draw of 0.0 (any draw below 0.25) | side numbered 1..4 (as the Rust `random(1, 5)` does), so every UFO's random vector gets one of the four shifts (right, left, down or up) | high; not executed | TsManager.CreateUfoAsWritten, TsManager.CreateUfoAsWrittenMissesEdges | TsManager.CreateUfo, TsManager.CreateUfoReachesEveryEdge |

`TsFrame.Update` spawns its UFO through `TsManager.CreateUfoAsWritten`, as the
source's `update` calls `createUfo`; the corrected `TsManager.CreateUfo` stands
beside it as the intended behaviour.

=== FILE: actors.dfy ===
/** The Rust game's other sprites, reduced to the state the sprite manager
    reads or writes, and the behaviour of the code it calls but which is not
    part of this model (Sprite, Ship, Ufo, Explosion, Interval, the random
    vector generators), bundled as supplied functions. */
module Actors {
  import opened Geometry
  import opened Steering
  import opened Potatoids

  /** The player's ship: its sprite, heading and control state. */
  datatype Ship = Ship(sprite: Sprite, heading: real, controls: Controls)

  /** A flying saucer with its shoot frequency and the ship position it tracks. */
  datatype Ufo = Ufo(sprite: Sprite, shootFrequency: u32, shipPosition: Vec2)

  /** A fading explosion; `frame` is its progress, advanced by its own update. */
  datatype Explosion = Explosion(sprite: Sprite, frame: nat)

  /** The UFO spawn gate: never armed, armed with a frequency, or cancelled. */
  datatype Interval = Idle | Armed(frequency: u32) | Cancelled

  /** Explosion::new: a fresh explosion on a copy of the given sprite data. */
  function NewExplosion(data: SpriteData, canvas: Canvas): Explosion {
    Explosion(Sprite(data, canvas), 0)
  }

  /** Ship::new with zero velocity, as the manager builds it; Ship::new itself
      is not part of this model, so heading and controls start at rest. */
  function NewShip(data: SpriteData, canvas: Canvas): Ship {
    Ship(Sprite(data, canvas), 0.0, IDLE)
  }

  /** The behaviour of everything the manager calls but does not define. */
  datatype Physics = Physics(
    spriteStep: Sprite -> Sprite,               // Sprite::update
    shipStep: Ship -> Ship,                     // Ship::update
    ufoStep: Ufo -> Ufo,                        // Ufo::update
    explosionStep: Explosion -> Explosion,      // Explosion::update
    isFaded: Explosion -> bool,                 // Explosion::is_faded
    shipLasersHit: (Ship, Sprite) -> bool,      // Ship::lasers_collide_with
    shipCollides: (Ship, Sprite) -> bool,       // Ship::collide_with
    ufoLasersHit: (Ufo, Sprite) -> bool,        // Ufo::lasers_collide_with
    shipBreakUp: Ship -> seq<Potatoid>,         // Ship::break_up
    childDraws: Potatoid -> seq<ChildDraw>,     // random draws of Potatoid::break_up
    ufoDue: Interval -> bool)                   // Interval::is_ellapsed
  {
    /** The random source always supplies enough valid draws for a break-up. */
    ghost predicate Valid() {
      forall p :: CanBreakUp(p, childDraws(p))
    }
  }
}

=== FILE: geometry.dfy ===
/** Values shared by both games: the source's unsigned integer widths, plane
    vectors, canvas bounds, the common physical state of a sprite, and an
    optional value. Positions and velocities are carried as plain pairs of
    reals; no floating-point rounding is modelled. */
module Geometry {

  /** The source's unsigned integer widths. */
  type u8 = x: int | 0 <= x < 0x100
  type u32 = x: int | 0 <= x < 0x1_0000_0000

  datatype Vec2 = Vec2(x: real, y: real) {
    function Add(other: Vec2): Vec2 {
      Vec2(x + other.x, y + other.y)
    }

    function Scale(k: real): Vec2 {
      Vec2(k * x, k * y)
    }
  }

  const ZERO: Vec2 := Vec2(0.0, 0.0)

  /** The width and height of the drawing surface. */
  datatype Canvas = Canvas(width: real, height: real)

  function Center(canvas: Canvas): Vec2 {
    Vec2(canvas.width / 2.0, canvas.height / 2.0)
  }

  /** Which way a new UFO's random start vector is shifted. */
  datatype Edge = Right | Left | Below | Above

  /** One canvas width to the right or left, or one canvas height down or up.
      Applied to a small vector near the origin, the left and up shifts put
      the point off the canvas, while the right and down shifts put it on the
      right or bottom edge. */
  function EdgeShift(canvas: Canvas, edge: Edge): Vec2 {
    match edge
    case Right => Vec2(canvas.width, 0.0)
    case Left => Vec2(-canvas.width, 0.0)
    case Below => Vec2(0.0, canvas.height)
    case Above => Vec2(0.0, -canvas.height)
  }

  /** Physical state common to all sprites; copied by value when a sprite is
      derived from another one. */
  datatype SpriteData = SpriteData(
    position: Vec2,
    velocity: Vec2,
    diameter: real,
    rotation: real,
    rotationStep: real)

  /** A sprite: its physical state plus the canvas it wraps around. */
  datatype Sprite = Sprite(data: SpriteData, canvas: Canvas)

  /** A value that may be absent. */
  datatype Option<+T> = None | Some(value: T)
}

=== FILE: potatoid.dfy ===
/** The asteroid ("potatoid"): an irregular polygon around a sprite, built once
    from random vertex radii, and the rule that breaks a shot asteroid into
    smaller ones. */
module Potatoids {
  import opened Geometry
  import opened Random

  /** Above this diameter a break-up yields three children, otherwise two. */
  const DIAMETER_MAX: real := 110.0
  /** At or below this diameter a shot asteroid is destroyed outright. */
  const MINIMAL_DIAMETER_BREAKUP: real := 60.0
  /** Vertex radii are drawn from [VERTEX_RADIUS_MIN, VERTEX_RADIUS_MAX) × diameter. */
  const VERTEX_RADIUS_MIN: real := 0.35
  const VERTEX_RADIUS_MAX: real := 0.5
  /** A child's diameter is the parent's over (child count × SHRINK). */
  const SHRINK: real := 0.8

  /** A vertex in polar form: it lies at angle 2π·index/sides from the centre,
      at distance `radius`. Its cartesian projection is left out. */
  datatype Vertex = Vertex(index: nat, radius: real)

  datatype Potatoid = Potatoid(sides: u8, sprite: Sprite, vertices: seq<Vertex>) {
    function Diameter(): real {
      sprite.data.diameter
    }
  }

  /** `vs` is an outline of `sides` vertices, the k-th at angle step k and at a
      radius within the allowed band for this diameter. */
  predicate IsOutline(vs: seq<Vertex>, sides: nat, diameter: real) {
    && |vs| == sides
    && forall k :: 0 <= k < |vs| ==>
         && vs[k].index == k
         && VERTEX_RADIUS_MIN * diameter <= vs[k].radius < VERTEX_RADIUS_MAX * diameter
  }

  /** Enough radius draws for `sides` vertices, and a diameter whose radius band
      is non-empty whenever a radius has to be drawn (the sampler panics on an
      empty band). */
  predicate CanOutline(diameter: real, sides: nat, radii: seq<real>) {
    && (sides == 0 || diameter > 0.0)
    && sides <= |radii|
    && AllUnits(radii)
  }

  /** One vertex per side, the k-th using the k-th radius draw. */
  function GenerateVertices(diameter: real, sides: u8, radii: seq<real>): (vs: seq<Vertex>)
    requires CanOutline(diameter, sides, radii)
    ensures IsOutline(vs, sides, diameter)
  {
    seq(sides, k requires 0 <= k < sides =>
      Vertex(k, UniformReal(VERTEX_RADIUS_MIN * diameter, VERTEX_RADIUS_MAX * diameter, radii[k])))
  }

  /** Potatoid::new: wraps the sprite data and generates the outline once. */
  function New(data: SpriteData, sides: u8, canvas: Canvas, radii: seq<real>): (p: Potatoid)
    requires CanOutline(data.diameter, sides, radii)
    ensures p.sides == sides && p.sprite == Sprite(data, canvas)
    ensures IsOutline(p.vertices, sides, data.diameter)
  {
    Potatoid(sides, Sprite(data, canvas), GenerateVertices(data.diameter, sides, radii))
  }

  /** Potatoid::update: the sprite takes one physics step (supplied, since
      Sprite::update is not part of this model); side count and outline stay. */
  function Update(p: Potatoid, step: Sprite -> Sprite): (q: Potatoid)
    ensures q.sprite == step(p.sprite)
    ensures q.sides == p.sides && q.vertices == p.vertices
  {
    p.(sprite := step(p.sprite))
  }

  /** Potatoid::collide_with: the sprite's circular test (supplied). */
  function CollideWith(p: Potatoid, other: Sprite, collide: (Sprite, Sprite) -> bool): (hit: bool)
    ensures hit == collide(p.sprite, other)
  {
    collide(p.sprite, other)
  }

  /** The polygon is visual only: two asteroids on the same sprite collide alike. */
  lemma CollisionIgnoresOutline(p: Potatoid, q: Potatoid, other: Sprite, collide: (Sprite, Sprite) -> bool)
    requires p.sprite == q.sprite
    ensures CollideWith(p, other, collide) == CollideWith(q, other, collide)
  {
  }

  /** How many children a shot asteroid of this diameter breaks into. */
  function ChildCount(diameter: real): nat {
    if diameter <= MINIMAL_DIAMETER_BREAKUP then 0
    else if diameter > DIAMETER_MAX then 3
    else 2
  }

  /** The diameter of each of n children of a parent of diameter d. */
  function ChildDiameter(d: real, n: nat): (c: real)
    requires n == 2 || n == 3
    ensures d > 0.0 ==> 0.0 < c <= d / 1.6
    ensures n == 2 ==> c == d / 1.6
    ensures n == 3 ==> c == d / 2.4
  {
    assert n as real * SHRINK == (if n == 2 then 1.6 else 2.4);
    d / (n as real * SHRINK)
  }

  /** The random part of one child: its velocity and its vertex radius draws. */
  datatype ChildDraw = ChildDraw(velocity: Vec2, radii: seq<real>)

  /** Enough draws for every child the break-up can produce. */
  predicate CanBreakUp(p: Potatoid, draws: seq<ChildDraw>) {
    && ChildCount(p.Diameter()) <= |draws|
    && forall i :: 0 <= i < |draws| ==> p.sides <= |draws[i].radii| && AllUnits(draws[i].radii)
  }

  /** `c` is one of `n` children of `p`: everything copied from the parent except
      a scaled diameter and the drawn velocity, with its own fresh outline. */
  predicate IsChild(c: Potatoid, p: Potatoid, n: nat, draw: ChildDraw)
    requires n > 0
  {
    && c.sides == p.sides
    && c.sprite.canvas == p.sprite.canvas
    && c.sprite.data == p.sprite.data.(diameter := p.Diameter() / (n as real * SHRINK), velocity := draw.velocity)
    && IsOutline(c.vertices, c.sides, c.Diameter())
  }

  /** Potatoid::break_up. The parent is a value and is left as it was. */
  function BreakUp(p: Potatoid, draws: seq<ChildDraw>): (children: seq<Potatoid>)
    requires CanBreakUp(p, draws)
    ensures children == [] <==> p.Diameter() <= MINIMAL_DIAMETER_BREAKUP
    ensures p.Diameter() > MINIMAL_DIAMETER_BREAKUP ==>
              |children| == if p.Diameter() > DIAMETER_MAX then 3 else 2
    ensures forall i :: 0 <= i < |children| ==> IsChild(children[i], p, |children|, draws[i])
    ensures forall c :: c in children ==> c.Diameter() <= p.Diameter() / 1.6 && c.Diameter() < p.Diameter()
  {
    var n := ChildCount(p.Diameter());
    if n == 0 then []
    else
      var d := ChildDiameter(p.Diameter(), n);
      seq(n, i requires 0 <= i < n =>
        New(p.sprite.data.(diameter := d, velocity := draws[i].velocity), p.sides, p.sprite.canvas, draws[i].radii))
  }

  /** The number of laser hits that clears an asteroid of this diameter
      together with all of its descendants. It is well defined because every
      break-up shrinks the diameter by a factor of at least 1.6. */
  function HitsToClear(diameter: real): nat
    decreases if diameter > MINIMAL_DIAMETER_BREAKUP then diameter.Floor else 0
  {
    var n := ChildCount(diameter);
    if n == 0 then 1
    else 1 + n * HitsToClear(ChildDiameter(diameter, n))
  }

  /** Total hits to clear every asteroid in a collection. */
  function SumHits(asteroids: seq<Potatoid>): nat {
    if asteroids == [] then 0 else HitsToClear(asteroids[0].Diameter()) + SumHits(asteroids[1..])
  }

  lemma MulSucc(n: nat, h: nat)
    ensures (n + 1) * h == n * h + h
  {
  }

  lemma {:induction false} SumHitsUniform(asteroids: seq<Potatoid>, h: nat)
    requires forall k :: 0 <= k < |asteroids| ==> HitsToClear(asteroids[k].Diameter()) == h
    ensures SumHits(asteroids) == |asteroids| * h
  {
    if asteroids != [] {
      var rest := asteroids[1..];
      SumHitsUniform(rest, h);
      MulSucc(|rest|, h);
    }
  }

  /** Repeated break-up ends: shooting an asteroid costs one hit, and clearing it
      costs that hit plus the hits that clear its children. */
  lemma BreakUpHitsToClear(p: Potatoid, draws: seq<ChildDraw>)
    requires CanBreakUp(p, draws)
    ensures HitsToClear(p.Diameter()) == 1 + SumHits(BreakUp(p, draws))
  {
    var children := BreakUp(p, draws);
    var n := ChildCount(p.Diameter());
    if n > 0 {
      var d := ChildDiameter(p.Diameter(), n);
      assert |children| == n;
      forall c | c in children
        ensures c.Diameter() == d
      {
        var i :| 0 <= i < |children| && children[i] == c;
        assert IsChild(children[i], p, n, draws[i]);
      }
      SumHitsUniform(children, HitsToClear(d));
    }
  }

  /** Hits needed to clear an asteroid of a freshly spawned size, [40, 120):
      at most seven, for one between 96 and 110 whose children split again. */
  lemma HitsToClearSpawned(d: real)
    requires 40.0 <= d < 120.0
    ensures d <= 60.0 ==> HitsToClear(d) == 1
    ensures 60.0 < d <= 96.0 ==> HitsToClear(d) == 3
    ensures 96.0 < d <= 110.0 ==> HitsToClear(d) == 7
    ensures 110.0 < d ==> HitsToClear(d) == 4
    ensures 1 <= HitsToClear(d) <= 7
  {
    if 60.0 < d <= 110.0 {
      var c := d / 1.6;
      if c > 60.0 {
        assert HitsToClear(c / 1.6) == 1;
        assert HitsToClear(c) == 3;
      } else {
        assert HitsToClear(c) == 1;
      }
    } else if d > 110.0 {
      assert HitsToClear(d / 2.4) == 1;
    }
  }
}

=== FILE: random.dfy ===
/** Random draws. Every random number the game asks for is modelled as a
    uniform "unit" draw u in [0, 1) supplied by the caller, mapped onto the
    requested range the way a uniform sampler does. */
module Random {

  predicate IsUnit(u: real) {
    0.0 <= u < 1.0
  }

  predicate AllUnits(us: seq<real>) {
    forall k :: 0 <= k < |us| ==> IsUnit(us[k])
  }

  /** The share of a positive span that a unit draw selects. */
  function Portion(u: real, span: real): (r: real)
    requires IsUnit(u) && span > 0.0
    ensures 0.0 <= r < span
  {
    var rest := 1.0 - u;
    assert rest * span > 0.0;
    assert u * span == span - rest * span;
    u * span
  }

  /** Sampling a real from the half-open range [lo, hi). The range must be
      non-empty: the Rust sampler panics on an empty one. */
  function UniformReal(lo: real, hi: real, u: real): (r: real)
    requires lo < hi && IsUnit(u)
    ensures lo <= r < hi
  {
    lo + Portion(u, hi - lo)
  }

  /** Sampling an integer from the half-open range [lo, hi). */
  function UniformInt(lo: int, hi: int, u: real): (r: int)
    requires lo < hi && IsUnit(u)
    ensures lo <= r < hi
  {
    lo + Portion(u, (hi - lo) as real).Floor
  }
}

=== FILE: sprite_manager.dfy ===
/** The Rust sprite manager's state and its small state transitions:
    construction, key handling, asteroid and UFO creation, and the level
    operations. The per-frame update is in module RustFrame. */
module RustManager {
  import opened Geometry
  import opened Random
  import opened Steering
  import opened Potatoids
  import opened Actors

  /** Asteroids spawned by the constructor. */
  const INITIAL_ASTEROIDS: u32 := 20
  /** Spawned diameters are drawn from [ASTEROID_DIAMETER_MIN, ASTEROID_DIAMETER_MAX). */
  const ASTEROID_DIAMETER_MIN: real := 40.0
  const ASTEROID_DIAMETER_MAX: real := 120.0
  /** Spawned side counts are drawn from [SIDES_MIN, SIDES_MAX). */
  const SIDES_MIN: int := 8
  const SIDES_MAX: int := 20
  /** Magnitude of a spawned asteroid's rotation step. */
  const SPIN: real := 0.01
  /** The spawn ring's outer radius as a multiple of its inner one, half the canvas height. */
  const RING_FACTOR: real := 1.3
  /** The f64 value of π. */
  const PI: real := 3.141592653589793
  /** Heading of a ship placed at the start of a level: straight up. */
  const HEADING_UP: real := -PI / 2.0

  const KEY_UP: string := "ArrowUp"
  const KEY_LEFT: string := "ArrowLeft"
  const KEY_RIGHT: string := "ArrowRight"
  const KEY_FIRE: string := " "

  datatype SpriteManager = SpriteManager(
    asteroids: seq<Potatoid>,
    ship: Ship,
    shipFragments: seq<Potatoid>,
    ufos: seq<Ufo>,
    explosions: seq<Explosion>,
    isShipActive: bool,
    ufoCreateFrequency: u32,
    countAsteroidsHit: nat,
    countUfoHit: nat,
    createUfoInterval: Interval,
    ufoShootFrequency: u32,
    canvas: Canvas)

  /** The random part of one spawned asteroid: unit draws for the ring radius,
      diameter, spin sign and side count; the ring direction (the cosine and
      sine of its angle) and the velocity as opaque vectors; the vertex radius
      draws. */
  datatype AsteroidDraw = AsteroidDraw(
    ring: real,
    direction: Vec2,
    velocity: Vec2,
    diameter: real,
    spin: real,
    sides: real,
    radii: seq<real>)

  predicate ValidAsteroidDraw(draw: AsteroidDraw) {
    && IsUnit(draw.ring) && IsUnit(draw.diameter) && IsUnit(draw.spin) && IsUnit(draw.sides)
    && UniformInt(SIDES_MIN, SIDES_MAX, draw.sides) <= |draw.radii|
    && AllUnits(draw.radii)
  }

  predicate ValidAsteroidDraws(draws: seq<AsteroidDraw>) {
    forall i :: 0 <= i < |draws| ==> ValidAsteroidDraw(draws[i])
  }

  /** What holds of every asteroid `create_asteroids` makes. */
  predicate IsSpawned(a: Potatoid) {
    && ASTEROID_DIAMETER_MIN <= a.Diameter() < ASTEROID_DIAMETER_MAX
    && SIDES_MIN <= a.sides < SIDES_MAX
    && (a.sprite.data.rotationStep == SPIN || a.sprite.data.rotationStep == -SPIN)
    && a.sprite.data.rotation == 0.0
    && IsOutline(a.vertices, a.sides, a.Diameter())
  }

  /** One asteroid of `create_asteroids`, placed on the ring around the centre. */
  function SpawnAsteroid(canvas: Canvas, draw: AsteroidDraw): (a: Potatoid)
    requires canvas.height > 0.0 && ValidAsteroidDraw(draw)
    ensures IsSpawned(a)
    ensures a.sprite.canvas == canvas && a.sprite.data.velocity == draw.velocity
  {
    var inner := canvas.height / 2.0;
    var radius := UniformReal(inner, inner * RING_FACTOR, draw.ring);
    var position := draw.direction.Scale(radius).Add(Center(canvas));
    var diameter := UniformReal(ASTEROID_DIAMETER_MIN, ASTEROID_DIAMETER_MAX, draw.diameter);
    var rotationStep := if UniformInt(0, 10, draw.spin) < 5 then SPIN else -SPIN;
    var sides := UniformInt(SIDES_MIN, SIDES_MAX, draw.sides);
    Potatoids.New(SpriteData(position, draw.velocity, diameter, 0.0, rotationStep), sides, canvas, draw.radii)
  }

  /** create_asteroids: the asteroid collection is replaced by `count` fresh
      asteroids, the i-th from the i-th draw. The sampler panics on an empty
      ring range, so a non-empty field needs a canvas of positive height. */
  method CreateAsteroids(m: SpriteManager, count: u32, draws: seq<AsteroidDraw>) returns (r: SpriteManager)
    requires count == 0 || m.canvas.height > 0.0
    requires count <= |draws| && ValidAsteroidDraws(draws)
    ensures r == m.(asteroids := r.asteroids)
    ensures |r.asteroids| == count
    ensures forall i :: 0 <= i < count ==> r.asteroids[i] == SpawnAsteroid(m.canvas, draws[i])
    ensures forall a :: a in r.asteroids ==> IsSpawned(a)
  {
    var asteroids: seq<Potatoid> := [];
    var counter := 0;
    while counter < count
      invariant counter <= count
      invariant |asteroids| == counter
      invariant forall i :: 0 <= i < counter ==> asteroids[i] == SpawnAsteroid(m.canvas, draws[i])
    {
      asteroids := asteroids + [SpawnAsteroid(m.canvas, draws[counter])];
      counter := counter + 1;
    }
    r := m.(asteroids := asteroids);
  }

  /** SpriteManager::new: an inactive ship at the centre, nothing but a field
      of twenty asteroids. */
  method New(canvas: Canvas, draws: seq<AsteroidDraw>) returns (m: SpriteManager)
    requires canvas.height > 0.0
    requires INITIAL_ASTEROIDS <= |draws| && ValidAsteroidDraws(draws)
    ensures !m.isShipActive
    ensures m.countAsteroidsHit == 0 && m.countUfoHit == 0
    ensures m.shipFragments == [] && m.ufos == [] && m.explosions == []
    ensures |m.asteroids| == 20 && forall a :: a in m.asteroids ==> IsSpawned(a)
    ensures m.ship.sprite.data.position == Center(canvas) && m.ship.sprite.data.velocity == ZERO
    ensures m.createUfoInterval == Idle && m.ufoShootFrequency == 0 && m.ufoCreateFrequency == 0
    ensures m.canvas == canvas
  {
    var ship := NewShip(SpriteData(Center(canvas), ZERO, 0.0, 0.0, 0.0), canvas);
    m := SpriteManager([], ship, [], [], [], false, 0, 0, 0, Idle, 0, canvas);
    m := CreateAsteroids(m, INITIAL_ASTEROIDS, draws);
  }

  /** The keys either handler reacts to. */
  predicate IsControlKey(key: string) {
    key == KEY_UP || key == KEY_LEFT || key == KEY_RIGHT || key == KEY_FIRE
  }

  /** key_pressed: thrust, turn or fire; any other key does nothing. The ship's
      activity is not consulted. */
  function KeyPressed(m: SpriteManager, key: string): (r: SpriteManager)
    ensures r == m.(ship := m.ship.(controls := r.ship.controls))
    ensures !IsControlKey(key) ==> r == m
    ensures key == KEY_UP ==> r.ship.controls == m.ship.controls.(boost := true)
    ensures key == KEY_LEFT ==> r.ship.controls == m.ship.controls.(rotation := -TURN_RATE)
    ensures key == KEY_RIGHT ==> r.ship.controls == m.ship.controls.(rotation := TURN_RATE)
    ensures key == KEY_FIRE ==> r.ship.controls == m.ship.controls.(shots := m.ship.controls.shots + 1)
  {
    var c := m.ship.controls;
    var c' :=
      if key == KEY_UP then c.(boost := true)
      else if key == KEY_LEFT then c.(rotation := -TURN_RATE)
      else if key == KEY_RIGHT then c.(rotation := TURN_RATE)
      else if key == KEY_FIRE then c.(shots := c.shots + 1)
      else c;
    m.(ship := m.ship.(controls := c'))
  }

  /** key_released: thrust off or turning stopped; releasing the fire key or
      any other key does nothing. */
  function KeyReleased(m: SpriteManager, key: string): (r: SpriteManager)
    ensures r == m.(ship := m.ship.(controls := r.ship.controls))
    ensures !IsControlKey(key) || key == KEY_FIRE ==> r == m
    ensures key == KEY_UP ==> r.ship.controls == m.ship.controls.(boost := false)
    ensures key == KEY_LEFT || key == KEY_RIGHT ==> r.ship.controls == m.ship.controls.(rotation := 0.0)
  {
    var c := m.ship.controls;
    var c' :=
      if key == KEY_UP then c.(boost := false)
      else if key == KEY_LEFT || key == KEY_RIGHT then c.(rotation := 0.0)
      else c;
    m.(ship := m.ship.(controls := c'))
  }

  /** Pressing then releasing a steering key from rest returns to the state
      before the press. */
  lemma PressReleaseRestores(m: SpriteManager, key: string)
    requires key == KEY_UP || key == KEY_LEFT || key == KEY_RIGHT
    requires Resting(m.ship.controls)
    ensures KeyReleased(KeyPressed(m, key), key) == m
  {
  }

  function CornerEdge(corner: int): Edge {
    match corner
    case 1 => Right
    case 2 => Left
    case 3 => Below
    case _ => Above
  }

  /** The random part of a new UFO: the corner number, the jitter vector that
      is shifted, and the velocity. */
  datatype UfoDraw = UfoDraw(corner: int, jitter: Vec2, velocity: Vec2)

  /** create_ufo: records the shoot frequency and appends exactly one UFO, of
      zero diameter, placed at the jitter shifted by one canvas width or
      height to the right, left, down or up. The tracked ship position starts
      at the origin (Ufo::new is not part of this model); it is overwritten
      before every update. */
  function CreateUfo(m: SpriteManager, ufoShootFrequency: u32, draw: UfoDraw): (r: SpriteManager)
    ensures r == m.(ufos := r.ufos, ufoShootFrequency := ufoShootFrequency)
    ensures |r.ufos| == |m.ufos| + 1 && r.ufos[..|m.ufos|] == m.ufos
    ensures var u := r.ufos[|m.ufos|];
            && u.shootFrequency == ufoShootFrequency
            && u.sprite.canvas == m.canvas
            && u.sprite.data == SpriteData(u.sprite.data.position, draw.velocity, 0.0, 0.0, 0.0)
            && exists edge: Edge :: u.sprite.data.position == draw.jitter.Add(EdgeShift(m.canvas, edge))
  {
    var edge := CornerEdge(draw.corner);
    var data := SpriteData(draw.jitter.Add(EdgeShift(m.canvas, edge)), draw.velocity, 0.0, 0.0, 0.0);
    var ufo := Ufo(Sprite(data, m.canvas), ufoShootFrequency, ZERO);
    m.(ufoShootFrequency := ufoShootFrequency, ufos := m.ufos + [ufo])
  }

  /** Each of the four shifts is given to a new UFO by one of the corner
      numbers 1 to 4 that `random(1, 5)` draws. */
  lemma EveryEdgeReachable(m: SpriteManager, ufoShootFrequency: u32, jitter: Vec2, velocity: Vec2, edge: Edge)
    ensures exists corner :: (1 <= corner <= 4 &&
      CreateUfo(m, ufoShootFrequency, UfoDraw(corner, jitter, velocity)).ufos[|m.ufos|].sprite.data.position
        == jitter.Add(EdgeShift(m.canvas, edge)))
  {
    var corner := match edge
      case Right => 1
      case Left => 2
      case Below => 3
      case Above => 4;
    assert CornerEdge(corner) == edge;
    assert CreateUfo(m, ufoShootFrequency, UfoDraw(corner, jitter, velocity)).ufos[|m.ufos|].sprite.data.position
      == jitter.Add(EdgeShift(m.canvas, edge));
  }

  /** get_asteroids_count: how many asteroids are on the field. */
  function GetAsteroidsCount(m: SpriteManager): (n: nat)
    ensures n == |m.asteroids| && (n == 0 <==> m.asteroids == [])
  {
    |m.asteroids|
  }

  /** reset: asteroids and ship fragments go; UFOs, explosions, ship and
      counters stay (the UFO clearing is commented out in the source). */
  function Reset(m: SpriteManager): (r: SpriteManager)
    ensures r.asteroids == [] && r.shipFragments == []
    ensures r.ufos == m.ufos && r.explosions == m.explosions
    ensures r == m.(asteroids := [], shipFragments := [])
  {
    m.(asteroids := [], shipFragments := [])
  }

  /** stop_level: UFOs cleared, the spawn gate cancelled, frequency and both
      hit counters zeroed; the asteroid field, ship and explosions stay. */
  function StopLevel(m: SpriteManager): (r: SpriteManager)
    ensures r.ufos == [] && r.createUfoInterval == Cancelled
    ensures r.ufoShootFrequency == 0 && r.countAsteroidsHit == 0 && r.countUfoHit == 0
    ensures r.asteroids == m.asteroids && r.ship == m.ship && r.isShipActive == m.isShipActive
    ensures r.shipFragments == m.shipFragments && r.explosions == m.explosions
  {
    m.(ufos := [], createUfoInterval := Cancelled, ufoShootFrequency := 0,
       countAsteroidsHit := 0, countUfoHit := 0)
  }

  /** Reset and stop_level touch disjoint parts of the state, so their order
      does not matter, and each is idempotent. */
  lemma ResetStopLevelCommute(m: SpriteManager)
    ensures Reset(StopLevel(m)) == StopLevel(Reset(m))
    ensures Reset(Reset(m)) == Reset(m)
    ensures StopLevel(StopLevel(m)) == StopLevel(m)
  {
  }

  /** start_level: after a reset the ship is recentred, stopped, pointed up and
      activated, a field of `countAsteroids` asteroids is spawned and the UFO
      gate is armed. UFOs, explosions, hit counters and the ship's control
      state are carried over. */
  method StartLevel(m: SpriteManager, countAsteroids: u32, ufoCreateFrequency: u32,
                    ufoShootFrequency: u32, draws: seq<AsteroidDraw>) returns (r: SpriteManager)
    requires countAsteroids == 0 || m.canvas.height > 0.0
    requires countAsteroids <= |draws| && ValidAsteroidDraws(draws)
    ensures r.isShipActive
    ensures r.ship.sprite.data == m.ship.sprite.data.(position := Center(m.canvas), velocity := ZERO)
    ensures r.ship.heading == HEADING_UP && r.ship.controls == m.ship.controls
    ensures r.shipFragments == []
    ensures GetAsteroidsCount(r) == countAsteroids && forall a :: a in r.asteroids ==> IsSpawned(a)
    ensures r.createUfoInterval == Armed(ufoCreateFrequency) && r.ufoShootFrequency == ufoShootFrequency
    ensures r.ufos == m.ufos && r.explosions == m.explosions
    ensures r.countAsteroidsHit == m.countAsteroidsHit && r.countUfoHit == m.countUfoHit
    ensures r.canvas == m.canvas && r.ship.sprite.canvas == m.ship.sprite.canvas
    ensures r.ufoCreateFrequency == m.ufoCreateFrequency
    ensures r == m.(asteroids := r.asteroids, ship := r.ship, shipFragments := [], isShipActive := true,
                    createUfoInterval := Armed(ufoCreateFrequency), ufoShootFrequency := ufoShootFrequency)
  {
    r := m.(ufoShootFrequency := ufoShootFrequency);
    r := Reset(r);
    var data := r.ship.sprite.data.(position := Center(r.canvas), velocity := ZERO);
    r := r.(ship := r.ship.(sprite := r.ship.sprite.(data := data), heading := HEADING_UP), isShipActive := true);
    r := CreateAsteroids(r, countAsteroids, draws);
    r := r.(createUfoInterval := Armed(ufoCreateFrequency));
  }
}

=== FILE: sprite_manager_update.dfy ===
/** The Rust sprite manager's per-frame update. Each pass over a collection is
    a method that walks the collection by index in reverse, removing in place,
    exactly as the source does, and is proved equal to a reference definition
    that says which elements survive, what is spawned and how the counters
    move. */
module RustFrame {
  import opened Geometry
  import opened Potatoids
  import opened Actors
  import opened RustManager

  // ---------------------------------------------------------------------------
  // Ship fragments

  /** The fragment pass: every fragment takes one step, in place. */
  method UpdateFragments(fragments: seq<Potatoid>, step: Sprite -> Sprite) returns (r: seq<Potatoid>)
    ensures |r| == |fragments|
    ensures forall i :: 0 <= i < |r| ==> r[i] == Potatoids.Update(fragments[i], step)
  {
    r := fragments;
    var index := 0;
    while index < |r|
      invariant index <= |r| == |fragments|
      invariant forall i :: 0 <= i < index ==> r[i] == Potatoids.Update(fragments[i], step)
      invariant r[index..] == fragments[index..]
    {
      assert r[index] == r[index..][0];
      r := r[index := Potatoids.Update(r[index], step)];
      index := index + 1;
    }
  }

  // ---------------------------------------------------------------------------
  // Asteroid pass: reference definitions

  function Stepped(phys: Physics, a: Potatoid): Potatoid {
    Potatoids.Update(a, phys.spriteStep)
  }

  predicate Shot(phys: Physics, ship: Ship, a: Potatoid) {
    phys.shipLasersHit(ship, a.sprite)
  }

  /** The stepped asteroids no laser hit, in their original order. */
  function Survivors(phys: Physics, ship: Ship, s: seq<Potatoid>): seq<Potatoid> {
    if s == [] then []
    else
      var a := Stepped(phys, s[0]);
      (if Shot(phys, ship, a) then [] else [a]) + Survivors(phys, ship, s[1..])
  }

  /** The break-up children of the shot asteroids, highest index first (the
      order in which the reverse walk appends them). */
  function Offspring(phys: Physics, ship: Ship, s: seq<Potatoid>): seq<Potatoid>
    requires phys.Valid()
  {
    if s == [] then []
    else
      var a := Stepped(phys, s[0]);
      Offspring(phys, ship, s[1..]) + (if Shot(phys, ship, a) then BreakUp(a, phys.childDraws(a)) else [])
  }

  /** One explosion per shot asteroid too small to break up, highest index first. */
  function Blasts(phys: Physics, ship: Ship, canvas: Canvas, s: seq<Potatoid>): seq<Explosion>
    requires phys.Valid()
  {
    if s == [] then []
    else
      var a := Stepped(phys, s[0]);
      Blasts(phys, ship, canvas, s[1..]) +
        (if Shot(phys, ship, a) && BreakUp(a, phys.childDraws(a)) == [] then [NewExplosion(a.sprite.data, canvas)] else [])
  }

  function ShotCount(phys: Physics, ship: Ship, s: seq<Potatoid>): nat {
    if s == [] then 0
    else (if Shot(phys, ship, Stepped(phys, s[0])) then 1 else 0) + ShotCount(phys, ship, s[1..])
  }

  /** Shot asteroids that break into children. */
  function SplitCount(phys: Physics, ship: Ship, s: seq<Potatoid>): nat {
    if s == [] then 0
    else
      var a := Stepped(phys, s[0]);
      (if Shot(phys, ship, a) && a.Diameter() > MINIMAL_DIAMETER_BREAKUP then 1 else 0) + SplitCount(phys, ship, s[1..])
  }

  /** Some asteroid no laser hit touches the ship's body. */
  predicate Rammed(phys: Physics, ship: Ship, s: seq<Potatoid>) {
    && s != []
    && var a := Stepped(phys, s[0]);
       (!Shot(phys, ship, a) && phys.shipCollides(ship, a.sprite)) || Rammed(phys, ship, s[1..])
  }

  /** Every shot asteroid is removed and counted once, and is replaced either by
      one explosion or by two or three children; nothing else is removed. */
  lemma {:induction false} AsteroidPassAccounting(phys: Physics, ship: Ship, canvas: Canvas, s: seq<Potatoid>)
    requires phys.Valid()
    ensures |Survivors(phys, ship, s)| + ShotCount(phys, ship, s) == |s|
    ensures ShotCount(phys, ship, s) == |Blasts(phys, ship, canvas, s)| + SplitCount(phys, ship, s)
    ensures 2 * SplitCount(phys, ship, s) <= |Offspring(phys, ship, s)| <= 3 * SplitCount(phys, ship, s)
  {
    if s != [] {
      AsteroidPassAccounting(phys, ship, canvas, s[1..]);
      var a := Stepped(phys, s[0]);
      if Shot(phys, ship, a) {
        var children := BreakUp(a, phys.childDraws(a));
        assert children == [] <==> a.Diameter() <= MINIMAL_DIAMETER_BREAKUP;
      }
    }
  }

  /** The reference definitions, unfolded for one more asteroid in front. */
  lemma PassStep(phys: Physics, ship: Ship, canvas: Canvas, x: Potatoid, s: seq<Potatoid>)
    requires phys.Valid()
    ensures var a := Stepped(phys, x);
            && (Shot(phys, ship, a) ==>
                  && Survivors(phys, ship, [x] + s) == Survivors(phys, ship, s)
                  && Offspring(phys, ship, [x] + s) == Offspring(phys, ship, s) + BreakUp(a, phys.childDraws(a))
                  && ShotCount(phys, ship, [x] + s) == ShotCount(phys, ship, s) + 1
                  && Rammed(phys, ship, [x] + s) == Rammed(phys, ship, s))
            && (!Shot(phys, ship, a) ==>
                  && Survivors(phys, ship, [x] + s) == [a] + Survivors(phys, ship, s)
                  && Offspring(phys, ship, [x] + s) == Offspring(phys, ship, s)
                  && ShotCount(phys, ship, [x] + s) == ShotCount(phys, ship, s)
                  && Blasts(phys, ship, canvas, [x] + s) == Blasts(phys, ship, canvas, s)
                  && (Rammed(phys, ship, [x] + s) <==> phys.shipCollides(ship, a.sprite) || Rammed(phys, ship, s)))
            && (Shot(phys, ship, a) && BreakUp(a, phys.childDraws(a)) == [] ==>
                  Blasts(phys, ship, canvas, [x] + s) == Blasts(phys, ship, canvas, s) + [NewExplosion(a.sprite.data, canvas)])
            && (Shot(phys, ship, a) && BreakUp(a, phys.childDraws(a)) != [] ==>
                  Blasts(phys, ship, canvas, [x] + s) == Blasts(phys, ship, canvas, s))
  {
    var t := [x] + s;
    assert t[1..] == s;
    assert t[0] == x;
    var a := Stepped(phys, x);
    if !Shot(phys, ship, a) {
      assert Offspring(phys, ship, t) == Offspring(phys, ship, s) + [];
      assert Blasts(phys, ship, canvas, t) == Blasts(phys, ship, canvas, s) + [];
    } else {
      assert Survivors(phys, ship, t) == [] + Survivors(phys, ship, s);
      if BreakUp(a, phys.childDraws(a)) != [] {
        assert Blasts(phys, ship, canvas, t) == Blasts(phys, ship, canvas, s) + [];
      }
    }
  }

  /** Stepping the element just past a prefix in place, appending children
      and removing the stepped element leaves prefix, rest and children. */
  lemma ShotSplice<T>(p: seq<T>, x: T, a: T, survivors: seq<T>, offspring: seq<T>, children: seq<T>)
    ensures var s := (p + [x] + survivors + offspring)[|p| := a] + children;
            s[..|p|] + s[|p| + 1..] == p + survivors + (offspring + children)
  {
    var s := (p + [x] + survivors + offspring)[|p| := a] + children;
    assert s[..|p|] == p;
    assert s[|p| + 1..] == survivors + offspring + children;
  }

  /** Stepping the element just past a prefix in place. */
  lemma MissSplice<T>(p: seq<T>, x: T, a: T, survivors: seq<T>, offspring: seq<T>)
    ensures (p + [x] + survivors + offspring)[|p| := a] == p + ([a] + survivors) + offspring
  {
  }

  // ---------------------------------------------------------------------------
  // Asteroid pass: the reverse walk

  /** The state of the asteroid walk once the indices from `index` up have
      been visited: the unvisited prefix is still in place, and the visited
      suffix has been turned into its survivors and offspring, with the hit
      counter, explosions and ship state to match. */
  ghost predicate AsteroidsWalked(phys: Physics, m: SpriteManager, index: nat, s: SpriteManager)
    requires phys.Valid() && index <= |m.asteroids|
  {
    var visited := m.asteroids[index..];
    && s.asteroids == m.asteroids[..index] + Survivors(phys, m.ship, visited) + Offspring(phys, m.ship, visited)
    && s.countAsteroidsHit == m.countAsteroidsHit + ShotCount(phys, m.ship, visited)
    && s.explosions == m.explosions + Blasts(phys, m.ship, m.canvas, visited)
    && s.isShipActive == (m.isShipActive && !Rammed(phys, m.ship, visited))
    && s.shipFragments == (if m.isShipActive && !s.isShipActive then phys.shipBreakUp(m.ship) else m.shipFragments)
    && s == m.(asteroids := s.asteroids, countAsteroidsHit := s.countAsteroidsHit, explosions := s.explosions,
               isShipActive := s.isShipActive, shipFragments := s.shipFragments)
  }

  /** One iteration of the asteroid walk, at `index`: step the asteroid in
      place; if a laser hits it, push an explosion or append its children, then
      remove it and count the hit; otherwise, while the ship is active, a body
      contact destroys the ship and replaces the fragments. */
  method VisitAsteroid(phys: Physics, m: SpriteManager, index: nat, s: SpriteManager) returns (r: SpriteManager)
    requires phys.Valid() && index < |m.asteroids|
    requires AsteroidsWalked(phys, m, index + 1, s)
    ensures AsteroidsWalked(phys, m, index, r)
  {
    ghost var prefix := m.asteroids[..index];
    ghost var x := m.asteroids[index];
    ghost var visited := m.asteroids[index + 1..];
    ghost var survivors := Survivors(phys, m.ship, visited);
    ghost var offspring := Offspring(phys, m.ship, visited);
    assert m.asteroids[index..] == [x] + visited;
    assert m.asteroids[..index + 1] == prefix + [x];
    PassStep(phys, m.ship, m.canvas, x, visited);
    assert s.asteroids == prefix + [x] + survivors + offspring;

    var asteroids := s.asteroids;
    var asteroid := Stepped(phys, asteroids[index]);
    asteroids := asteroids[index := asteroid];
    r := s;
    if phys.shipLasersHit(s.ship, asteroid.sprite) {
      var children := BreakUp(asteroid, phys.childDraws(asteroid));
      if children == [] {
        r := r.(explosions := r.explosions + [NewExplosion(asteroid.sprite.data, s.canvas)]);
        assert asteroids + children == asteroids;
      } else {
        asteroids := asteroids + children;
      }
      ShotSplice(prefix, x, asteroid, survivors, offspring, children);
      asteroids := asteroids[..index] + asteroids[index + 1..];
      r := r.(asteroids := asteroids, countAsteroidsHit := r.countAsteroidsHit + 1);
    } else {
      MissSplice(prefix, x, asteroid, survivors, offspring);
      r := r.(asteroids := asteroids);
      if r.isShipActive && phys.shipCollides(s.ship, asteroid.sprite) {
        r := r.(isShipActive := false, shipFragments := phys.shipBreakUp(s.ship));
      }
    }
  }

  /** The asteroid pass of update. The walk runs from the last index down to 0
      over the indices present at entry: children are appended past them and a
      removal only shifts higher indices, so the unvisited prefix stays in
      place and no child is stepped or tested in the frame it is born. The
      laser test does not depend on the ship being active; the body test does,
      and once the ship is down it stays down. */
  method AsteroidPass(m: SpriteManager, phys: Physics) returns (r: SpriteManager)
    requires phys.Valid()
    ensures r.asteroids == Survivors(phys, m.ship, m.asteroids) + Offspring(phys, m.ship, m.asteroids)
    ensures r.countAsteroidsHit == m.countAsteroidsHit + ShotCount(phys, m.ship, m.asteroids)
    ensures r.explosions == m.explosions + Blasts(phys, m.ship, m.canvas, m.asteroids)
    ensures r.isShipActive == (m.isShipActive && !Rammed(phys, m.ship, m.asteroids))
    ensures r.shipFragments == if m.isShipActive && !r.isShipActive then phys.shipBreakUp(m.ship) else m.shipFragments
    ensures r == m.(asteroids := r.asteroids, countAsteroidsHit := r.countAsteroidsHit, explosions := r.explosions,
                    isShipActive := r.isShipActive, shipFragments := r.shipFragments)
  {
    r := m;
    var index := |m.asteroids|;
    assert m.asteroids[index..] == [];
    assert m.asteroids[..index] == m.asteroids;
    while index > 0
      invariant index <= |m.asteroids|
      invariant AsteroidsWalked(phys, m, index, r)
    {
      index := index - 1;
      r := VisitAsteroid(phys, m, index, r);
    }
    assert m.asteroids[index..] == m.asteroids;
  }

  // ---------------------------------------------------------------------------
  // UFO pass

  /** A UFO is told where the ship is, then takes its own step. */
  function StepUfo(phys: Physics, ship: Ship, u: Ufo): Ufo {
    phys.ufoStep(u.(shipPosition := ship.sprite.data.position))
  }

  function StepUfos(phys: Physics, ship: Ship, s: seq<Ufo>): seq<Ufo> {
    if s == [] then [] else [StepUfo(phys, ship, s[0])] + StepUfos(phys, ship, s[1..])
  }

  /** What the UFO pass leaves: the UFOs kept, the explosions pushed (in push
      order), the hits counted and whether the ship is still active. */
  datatype UfoSweep = UfoSweep(kept: seq<Ufo>, blasts: seq<Explosion>, hits: nat, active: bool)

  /** The UFO pass read from the back, as the walk visits it. While the ship is
      active, a laser-hit UFO is removed with one explosion and one hit; a UFO
      touching the ship, or whose lasers touch it, deactivates the ship, after
      which the remaining UFOs are only stepped. */
  function SweepUfos(phys: Physics, ship: Ship, canvas: Canvas, active: bool, s: seq<Ufo>): UfoSweep
    decreases |s|
  {
    if s == [] then UfoSweep([], [], 0, active)
    else if !active then UfoSweep(StepUfos(phys, ship, s), [], 0, false)
    else
      var u := StepUfo(phys, ship, s[|s| - 1]);
      var front := s[..|s| - 1];
      if phys.shipLasersHit(ship, u.sprite) then
        var rest := SweepUfos(phys, ship, canvas, true, front);
        rest.(blasts := [NewExplosion(u.sprite.data, canvas)] + rest.blasts, hits := rest.hits + 1)
      else if phys.shipCollides(ship, u.sprite) || phys.ufoLasersHit(u, ship.sprite) then
        UfoSweep(StepUfos(phys, ship, front) + [u], [], 0, false)
      else
        var rest := SweepUfos(phys, ship, canvas, true, front);
        rest.(kept := rest.kept + [u])
  }

  /** Visiting one more UFO below those already swept. */
  function UfoVisited(phys: Physics, ship: Ship, canvas: Canvas, u0: Ufo, o: UfoSweep): UfoSweep {
    var u := StepUfo(phys, ship, u0);
    if !o.active then o.(kept := [u] + o.kept)
    else if phys.shipLasersHit(ship, u.sprite) then
      o.(blasts := o.blasts + [NewExplosion(u.sprite.data, canvas)], hits := o.hits + 1)
    else if phys.shipCollides(ship, u.sprite) || phys.ufoLasersHit(u, ship.sprite) then
      o.(kept := [u] + o.kept, active := false)
    else o.(kept := [u] + o.kept)
  }

  lemma VisitedAddsBlast(phys: Physics, ship: Ship, canvas: Canvas, u: Ufo, o: UfoSweep, e: Explosion)
    ensures var w := UfoVisited(phys, ship, canvas, u, o);
            UfoVisited(phys, ship, canvas, u, o.(blasts := [e] + o.blasts, hits := o.hits + 1))
              == w.(blasts := [e] + w.blasts, hits := w.hits + 1)
  {
    assert [e] + (o.blasts + [NewExplosion(StepUfo(phys, ship, u).sprite.data, canvas)])
        == ([e] + o.blasts) + [NewExplosion(StepUfo(phys, ship, u).sprite.data, canvas)];
  }

  lemma VisitedAddsKept(phys: Physics, ship: Ship, canvas: Canvas, u: Ufo, o: UfoSweep, v: Ufo)
    ensures var w := UfoVisited(phys, ship, canvas, u, o);
            UfoVisited(phys, ship, canvas, u, o.(kept := o.kept + [v])) == w.(kept := w.kept + [v])
  {
    assert [StepUfo(phys, ship, u)] + (o.kept + [v]) == ([StepUfo(phys, ship, u)] + o.kept) + [v];
  }

  /** The back-to-front reading agrees with visiting the lowest index last. */
  lemma {:induction false} SweepUfosCons(phys: Physics, ship: Ship, canvas: Canvas, active: bool, u: Ufo, s: seq<Ufo>)
    ensures SweepUfos(phys, ship, canvas, active, [u] + s) == UfoVisited(phys, ship, canvas, u, SweepUfos(phys, ship, canvas, active, s))
    decreases |s|
  {
    var t := [u] + s;
    if !active {
      assert t[1..] == s;
      if s == [] {
        assert StepUfos(phys, ship, t) == [StepUfo(phys, ship, u)];
      }
    } else if s == [] {
      assert t[..|t| - 1] == [];
    } else {
      var front := s[..|s| - 1];
      assert t[..|t| - 1] == [u] + front;
      assert t[|t| - 1] == s[|s| - 1];
      assert ([u] + front)[1..] == front;
      SweepUfosCons(phys, ship, canvas, active, u, front);
      var o := SweepUfos(phys, ship, canvas, true, front);
      var v := StepUfo(phys, ship, s[|s| - 1]);
      if phys.shipLasersHit(ship, v.sprite) {
        VisitedAddsBlast(phys, ship, canvas, u, o, NewExplosion(v.sprite.data, canvas));
      } else if phys.shipCollides(ship, v.sprite) || phys.ufoLasersHit(v, ship.sprite) {
        assert StepUfos(phys, ship, [u] + front) == [StepUfo(phys, ship, u)] + StepUfos(phys, ship, front);
      } else {
        VisitedAddsKept(phys, ship, canvas, u, o, v);
      }
    }
  }

  /** Removed UFOs are exactly the hit ones, each with one explosion; an
      inactive ship removes nothing and counts nothing. */
  lemma {:induction false} SweepUfosAccounting(phys: Physics, ship: Ship, canvas: Canvas, active: bool, s: seq<Ufo>)
    ensures var o := SweepUfos(phys, ship, canvas, active, s);
            && |o.kept| + o.hits == |s|
            && |o.blasts| == o.hits
            && (o.active ==> active)
            && (!active ==> o.kept == StepUfos(phys, ship, s) && o.hits == 0 && o.blasts == [])
    decreases |s|
  {
    if s != [] {
      StepUfosLength(phys, ship, s);
      if active {
        var front := s[..|s| - 1];
        StepUfosLength(phys, ship, front);
        SweepUfosAccounting(phys, ship, canvas, true, front);
      }
    }
  }

  lemma {:induction false} StepUfosLength(phys: Physics, ship: Ship, s: seq<Ufo>)
    ensures |StepUfos(phys, ship, s)| == |s|
  {
    if s != [] {
      StepUfosLength(phys, ship, s[1..]);
    }
  }

  /** Replacing the element just past a prefix. */
  lemma ReplaceAfter<T>(p: seq<T>, x: T, a: T, q: seq<T>)
    ensures (p + [x] + q)[|p| := a] == p + ([a] + q)
  {
  }

  /** Removing the element just past a prefix. */
  lemma DropAfter<T>(p: seq<T>, a: T, q: seq<T>)
    ensures (p + ([a] + q))[..|p|] + (p + ([a] + q))[|p| + 1..] == p + q
  {
    assert (p + ([a] + q))[..|p|] == p;
    assert (p + ([a] + q))[|p| + 1..] == q;
  }

  /** The state of the UFO walk once the indices from `index` up have been
      visited. */
  ghost predicate UfosWalked(phys: Physics, m: SpriteManager, index: nat, s: SpriteManager)
    requires index <= |m.ufos|
  {
    var o := SweepUfos(phys, m.ship, m.canvas, m.isShipActive, m.ufos[index..]);
    && s.ufos == m.ufos[..index] + o.kept
    && s.explosions == m.explosions + o.blasts
    && s.countUfoHit == m.countUfoHit + o.hits
    && s.isShipActive == o.active
    && s.shipFragments == (if m.isShipActive && !s.isShipActive then phys.shipBreakUp(m.ship) else m.shipFragments)
    && s == m.(ufos := s.ufos, explosions := s.explosions, countUfoHit := s.countUfoHit,
               isShipActive := s.isShipActive, shipFragments := s.shipFragments)
  }

  /** One iteration of the UFO walk, at `index`: tell the UFO where the ship
      is and step it in place; then, only while the ship is active, a laser hit
      counts, pushes one explosion and removes the UFO, and a body or UFO-laser
      contact destroys the ship and replaces the fragments. */
  method VisitUfo(phys: Physics, m: SpriteManager, index: nat, s: SpriteManager) returns (r: SpriteManager)
    requires index < |m.ufos|
    requires UfosWalked(phys, m, index + 1, s)
    ensures UfosWalked(phys, m, index, r)
  {
    ghost var prefix := m.ufos[..index];
    ghost var x := m.ufos[index];
    ghost var visited := m.ufos[index + 1..];
    ghost var o := SweepUfos(phys, m.ship, m.canvas, m.isShipActive, visited);
    assert m.ufos[index..] == [x] + visited;
    assert m.ufos[..index + 1] == prefix + [x];
    SweepUfosCons(phys, m.ship, m.canvas, m.isShipActive, x, visited);
    assert s.ufos == prefix + [x] + o.kept;

    var ufo := s.ufos[index].(shipPosition := s.ship.sprite.data.position);
    ufo := phys.ufoStep(ufo);
    ReplaceAfter(prefix, x, ufo, o.kept);
    var ufos := s.ufos[index := ufo];
    r := s.(ufos := ufos);
    if r.isShipActive {
      if phys.shipLasersHit(s.ship, ufo.sprite) {
        DropAfter(prefix, ufo, o.kept);
        r := r.(countUfoHit := r.countUfoHit + 1,
                explosions := r.explosions + [NewExplosion(ufo.sprite.data, s.canvas)],
                ufos := ufos[..index] + ufos[index + 1..]);
      } else if phys.shipCollides(s.ship, ufo.sprite) || phys.ufoLasersHit(ufo, s.ship.sprite) {
        r := r.(shipFragments := phys.shipBreakUp(s.ship), isShipActive := false);
      }
    }
  }

  /** The UFO pass of update: reverse walk, removal in place. */
  method UfoPass(m: SpriteManager, phys: Physics) returns (r: SpriteManager)
    ensures var o := SweepUfos(phys, m.ship, m.canvas, m.isShipActive, m.ufos);
            && r.ufos == o.kept
            && r.explosions == m.explosions + o.blasts
            && r.countUfoHit == m.countUfoHit + o.hits
            && r.isShipActive == o.active
    ensures r.shipFragments == if m.isShipActive && !r.isShipActive then phys.shipBreakUp(m.ship) else m.shipFragments
    ensures r == m.(ufos := r.ufos, explosions := r.explosions, countUfoHit := r.countUfoHit,
                    isShipActive := r.isShipActive, shipFragments := r.shipFragments)
  {
    r := m;
    var index := |m.ufos|;
    assert m.ufos[index..] == [];
    assert m.ufos[..index] == m.ufos;
    while index > 0
      invariant index <= |m.ufos|
      invariant UfosWalked(phys, m, index, r)
    {
      index := index - 1;
      r := VisitUfo(phys, m, index, r);
    }
    assert m.ufos[index..] == m.ufos;
  }

  // ---------------------------------------------------------------------------
  // Explosion pass

  /** The stepped explosions that have not faded, in their original order. */
  function Fresh(phys: Physics, s: seq<Explosion>): seq<Explosion> {
    if s == [] then []
    else
      var e := phys.explosionStep(s[0]);
      (if phys.isFaded(e) then [] else [e]) + Fresh(phys, s[1..])
  }

  lemma {:induction false} FreshNotFaded(phys: Physics, s: seq<Explosion>)
    ensures |Fresh(phys, s)| <= |s|
    ensures forall e :: e in Fresh(phys, s) ==> !phys.isFaded(e)
  {
    if s != [] {
      FreshNotFaded(phys, s[1..]);
    }
  }

  lemma FreshStep(phys: Physics, x: Explosion, s: seq<Explosion>)
    ensures var e := phys.explosionStep(x);
            Fresh(phys, [x] + s) == if phys.isFaded(e) then Fresh(phys, s) else [e] + Fresh(phys, s)
  {
    assert ([x] + s)[1..] == s;
    var e := phys.explosionStep(x);
    if phys.isFaded(e) {
      assert Fresh(phys, [x] + s) == [] + Fresh(phys, s);
    }
  }

  /** The explosion pass of update: each explosion steps, and a faded one is
      removed in the same frame. */
  method ExplosionPass(m: SpriteManager, phys: Physics) returns (r: SpriteManager)
    ensures r.explosions == Fresh(phys, m.explosions)
    ensures forall e :: e in r.explosions ==> !phys.isFaded(e)
    ensures r == m.(explosions := r.explosions)
  {
    ghost var original := m.explosions;
    var explosions := m.explosions;
    var index := |explosions|;
    assert original[index..] == [];
    assert original[..index] == original;
    while index > 0
      invariant 0 <= index <= |original|
      invariant explosions == original[..index] + Fresh(phys, original[index..])
    {
      index := index - 1;
      ghost var prefix := original[..index];
      ghost var x := original[index];
      ghost var kept := Fresh(phys, original[index + 1..]);
      assert original[index..] == [x] + original[index + 1..];
      assert original[..index + 1] == prefix + [x];
      FreshStep(phys, x, original[index + 1..]);
      var explosion := phys.explosionStep(explosions[index]);
      ReplaceAfter(prefix, x, explosion, kept);
      explosions := explosions[index := explosion];
      if phys.isFaded(explosion) {
        DropAfter(prefix, explosion, kept);
        explosions := explosions[..index] + explosions[index + 1..];
      }
    }
    assert original[index..] == original;
    FreshNotFaded(phys, original);
    r := m.(explosions := explosions);
  }

  // ---------------------------------------------------------------------------
  // The whole frame

  /** The ship as the passes see it: stepped only while active. */
  function FrameShip(m: SpriteManager, phys: Physics): Ship {
    if m.isShipActive then phys.shipStep(m.ship) else m.ship
  }

  /** SpriteManager::update, in the source's fixed order: ship, fragments,
      asteroids, UFOs, UFO spawn, explosions. */
  method Update(m: SpriteManager, phys: Physics, ufoDraw: UfoDraw) returns (r: SpriteManager)
    requires phys.Valid()
    ensures r.ship == FrameShip(m, phys)
    ensures r.isShipActive ==> m.isShipActive
    ensures r.asteroids == Survivors(phys, FrameShip(m, phys), m.asteroids) + Offspring(phys, FrameShip(m, phys), m.asteroids)
    ensures r.countAsteroidsHit == m.countAsteroidsHit + ShotCount(phys, FrameShip(m, phys), m.asteroids)
    ensures r.countAsteroidsHit <= m.countAsteroidsHit + |m.asteroids|
    ensures |r.shipFragments| == |m.shipFragments| || (m.isShipActive && !r.isShipActive)
    ensures !m.isShipActive ==> r.countUfoHit == m.countUfoHit && |m.ufos| <= |r.ufos|
    ensures !m.isShipActive ==> r.ufos[..|m.ufos|] == StepUfos(phys, m.ship, m.ufos)
    ensures |r.ufos| <= |m.ufos| + 1
    ensures forall e :: e in r.explosions ==> !phys.isFaded(e)
    ensures r.canvas == m.canvas && r.createUfoInterval == m.createUfoInterval
    ensures r.ufoShootFrequency == m.ufoShootFrequency && r.ufoCreateFrequency == m.ufoCreateFrequency
  {
    var s := m;
    if s.isShipActive {
      s := s.(ship := phys.shipStep(s.ship));
    }
    var fragments := UpdateFragments(s.shipFragments, phys.spriteStep);
    s := s.(shipFragments := fragments);
    AsteroidPassAccounting(phys, s.ship, s.canvas, m.asteroids);
    s := AsteroidPass(s, phys);
    SweepUfosAccounting(phys, s.ship, s.canvas, s.isShipActive, s.ufos);
    s := UfoPass(s, phys);
    if phys.ufoDue(s.createUfoInterval) {
      s := CreateUfo(s, s.ufoShootFrequency, ufoDraw);
    }
    s := ExplosionPass(s, phys);
    r := s;
  }
}

=== FILE: steering.dfy ===
/** The control state of the player's ship, as set by the key handlers of both
    managers. The ship's own reaction to these controls (thrust, turning, laser
    spawning) is not part of this model: `shots` counts the shoot requests. */
module Steering {

  /** Turn rate set while a rotation key is held. */
  const TURN_RATE: real := 0.1

  datatype Controls = Controls(boost: bool, rotation: real, shots: nat)

  /** No thrust, no turning, no shot requested yet. */
  const IDLE: Controls := Controls(false, 0.0, 0)

  /** The boost and rotation are released. */
  predicate Resting(c: Controls) {
    !c.boost && c.rotation == 0.0
  }
}

=== FILE: ts_actors.dfy ===
/** The TypeScript game's sprites, reduced to the state its sprites manager
    reads or writes, and the behaviour of the code the manager calls but which
    is not part of this model (Patatoid, Ship, Ufo, Explosion, Interval),
    bundled as supplied functions. */
module TsActors {
  import opened Geometry
  import opened Steering

  /** An asteroid as the manager builds it: position, diameter, velocity,
      rotation step and side count. */
  datatype Patatoid = Patatoid(position: Vec2, diameter: real, velocity: Vec2, rotationStep: real, sides: int)

  /** The player's ship: its position and control state. */
  datatype Ship = Ship(position: Vec2, controls: Controls)

  /** A flying saucer with its shoot frequency and the ship position it was
      last told about, if any. */
  datatype Ufo = Ufo(position: Vec2, shootFrequency: real, target: Option<Vec2>)

  /** A fading explosion; `frame` is its progress, advanced by its own update. */
  datatype Explosion = Explosion(position: Vec2, frame: nat)

  /** The UFO spawn timer, with the period it was built with. */
  datatype Interval = Interval(period: real)

  /** The manager's ship field: never assigned (undefined), set to null when
      the ship is destroyed, or holding a live ship. */
  datatype ShipSlot = Unset | Destroyed | Alive(ship: Ship)

  /** A hit counter as a JavaScript number: undefined until first assigned, NaN
      once undefined is incremented, otherwise a count. */
  datatype Counter = Undefined | NaN | Count(n: nat)

  /** The `++` operator on a counter. */
  function Bump(c: Counter): (r: Counter)
    ensures c.Count? <==> r.Count?
    ensures c.Count? ==> r.n == c.n + 1
    ensures !c.Count? ==> r == NaN
  {
    match c
    case Count(n) => Count(n + 1)
    case _ => NaN
  }

  /** What Explosion.update leaves: the advanced explosion, and whether it is
      still showing. */
  datatype Tick = Tick(next: Explosion, alive: bool)

  /** new Explosion(position): a fresh explosion at a copy of the position. */
  function NewExplosion(position: Vec2): Explosion {
    Explosion(position, 0)
  }

  /** The behaviour of everything the manager calls but does not define. */
  datatype Physics = Physics(
    patatoidStep: Patatoid -> Patatoid,         // Patatoid.update
    breakUp: Patatoid -> seq<Patatoid>,         // Patatoid.breakUp
    shipStep: Ship -> Ship,                     // Ship.update
    shipLasersHitAsteroid: (Ship, Patatoid) -> bool,  // Ship.lasersHit
    shipCollidesAsteroid: (Ship, Patatoid) -> bool,   // Ship.collideWith
    shipLasersHitUfo: (Ship, Ufo) -> bool,      // Ship.lasersHit
    shipCollidesUfo: (Ship, Ufo) -> bool,       // Ship.collideWith
    ufoLasersHit: (Ufo, Ship) -> bool,          // Ufo.lasersHit
    shipBreakUp: Ship -> seq<Patatoid>,         // Ship.breakUp
    ufoStep: (Ufo, Option<Vec2>) -> Ufo,        // Ufo.update
    explosionTick: Explosion -> Tick)           // Explosion.update
}

=== FILE: ts_manager.dfy ===
/** The TypeScript sprites manager's state and its small state transitions:
    construction, key handling, asteroid and UFO creation, the counts, and the
    level operations. The per-frame update is in module TsFrame. */
module TsManager {
  import opened Geometry
  import opened Random
  import opened Steering
  import opened TsActors

  /** The UFO timer's period is drawn within this distance of the requested frequency. */
  const VARIABILITY_IN_CREATING_UFOS: real := 5000.0
  /** Spawned diameters are drawn from [DIAMETER_MIN, DIAMETER_MAX). */
  const DIAMETER_MIN: real := 40.0
  const DIAMETER_MAX: real := 120.0
  /** Spawned side counts are the floor of a draw from [SIDES_MIN, SIDES_MAX). */
  const SIDES_MIN: real := 8.0
  const SIDES_MAX: real := 20.0
  /** Spawned rotation steps are drawn from [-SPIN, SPIN). */
  const SPIN: real := 0.01

  /** p5's key codes for the keys the handlers react to. */
  const LEFT_ARROW: int := 37
  const UP_ARROW: int := 38
  const RIGHT_ARROW: int := 39
  const SPACE: int := 32

  datatype SpritesManager = SpritesManager(
    asteroids: seq<Patatoid>,
    ship: ShipSlot,
    shipFragments: seq<Patatoid>,
    ufos: seq<Ufo>,
    explosions: seq<Explosion>,
    createUfoInterval: Option<Interval>,
    ufoShootFrequency: real,
    countAsteroidsHit: Counter,
    countUfosHit: Counter,
    canvas: Canvas)

  /** The constructor: empty collections and no ship, timer or counters yet. */
  function New(canvas: Canvas): (m: SpritesManager)
    ensures m.ship == Unset && m.createUfoInterval == None && m.ufoShootFrequency == 0.0
    ensures m.asteroids == [] && m.shipFragments == [] && m.ufos == [] && m.explosions == []
    ensures m.countAsteroidsHit == Undefined && m.countUfosHit == Undefined
    ensures m.canvas == canvas
  {
    SpritesManager([], Unset, [], [], [], None, 0.0, Undefined, Undefined, canvas)
  }

  /** Once a ship has been placed, both hit counters are numbers: the counters
      are only ever incremented while a ship is alive, and placing a ship
      starts them at zero. */
  predicate CountersSet(m: SpritesManager) {
    !m.ship.Unset? ==> m.countAsteroidsHit.Count? && m.countUfosHit.Count?
  }

  /** The random part of one spawned asteroid: its position, after the clamp
      away from the centre, and its direction as opaque vectors; unit draws for
      the diameter, the rotation step and the side count. */
  datatype PatatoidDraw = PatatoidDraw(position: Vec2, velocity: Vec2, diameter: real, spin: real, sides: real)

  predicate ValidPatatoidDraws(draws: seq<PatatoidDraw>) {
    forall i :: 0 <= i < |draws| ==>
      IsUnit(draws[i].diameter) && IsUnit(draws[i].spin) && IsUnit(draws[i].sides)
  }

  /** What holds of every asteroid `createAsteroids` makes. */
  predicate IsSpawned(a: Patatoid) {
    && DIAMETER_MIN <= a.diameter < DIAMETER_MAX
    && -SPIN <= a.rotationStep < SPIN
    && SIDES_MIN.Floor <= a.sides < SIDES_MAX.Floor
  }

  /** One asteroid of `createAsteroids`; the side count is the floor of a real
      draw, so it is a whole number. */
  function SpawnPatatoid(draw: PatatoidDraw): (a: Patatoid)
    requires IsUnit(draw.diameter) && IsUnit(draw.spin) && IsUnit(draw.sides)
    ensures IsSpawned(a)
    ensures a.position == draw.position && a.velocity == draw.velocity
  {
    var diameter := UniformReal(DIAMETER_MIN, DIAMETER_MAX, draw.diameter);
    var rotationStep := UniformReal(-SPIN, SPIN, draw.spin);
    var sides := UniformReal(SIDES_MIN, SIDES_MAX, draw.sides).Floor;
    Patatoid(draw.position, diameter, draw.velocity, rotationStep, sides)
  }

  /** createAsteroids: the asteroid collection is replaced by `count` fresh
      asteroids, the i-th from the i-th draw; a negative count leaves it empty. */
  method CreateAsteroids(m: SpritesManager, count: int, draws: seq<PatatoidDraw>) returns (r: SpritesManager)
    requires count <= |draws| && ValidPatatoidDraws(draws)
    ensures r == m.(asteroids := r.asteroids)
    ensures AsteroidsCount(r) == if count < 0 then 0 else count
    ensures forall i :: 0 <= i < |r.asteroids| ==> r.asteroids[i] == SpawnPatatoid(draws[i])
    ensures forall a :: a in r.asteroids ==> IsSpawned(a)
  {
    var asteroids: seq<Patatoid> := [];
    var counter := 0;
    while counter < count
      invariant 0 <= counter && (counter <= count || counter == 0)
      invariant |asteroids| == counter
      invariant forall i :: 0 <= i < counter ==> asteroids[i] == SpawnPatatoid(draws[i])
    {
      asteroids := asteroids + [SpawnPatatoid(draws[counter])];
      counter := counter + 1;
    }
    r := m.(asteroids := asteroids);
  }

  /** The random part of a new UFO: a unit draw for the side and the random
      unit vector that is shifted. */
  datatype UfoDraw = UfoDraw(side: real, offset: Vec2)

  /** `floor(random(4))`: one of 0, 1, 2, 3. */
  function DrawnSide(u: real): (side: int)
    requires IsUnit(u)
    ensures 0 <= side <= 3
  {
    Portion(u, 4.0).Floor
  }

  /** The switch on the side number: cases 1 to 4 pick an edge, any other
      number falls through without a shift. */
  function SwitchEdge(side: int): Option<Edge> {
    match side
    case 1 => Some(Right)
    case 2 => Some(Left)
    case 3 => Some(Below)
    case 4 => Some(Above)
    case _ => None
  }

  function Shifted(canvas: Canvas, v: Vec2, edge: Option<Edge>): Vec2 {
    match edge
    case Some(e) => v.Add(EdgeShift(canvas, e))
    case None => v
  }

  /** createUfo as written: the side is `floor(random(4))`, 0 to 3, while the
      switch handles 1 to 4. */
  function CreateUfoAsWritten(m: SpritesManager, ufoShootFrequency: real, draw: UfoDraw): (r: SpritesManager)
    requires IsUnit(draw.side)
    ensures r == m.(ufos := r.ufos)
    ensures |r.ufos| == |m.ufos| + 1 && r.ufos[..|m.ufos|] == m.ufos
    ensures var u := r.ufos[|m.ufos|];
            && u.shootFrequency == ufoShootFrequency && u.target == None
            && (u.position == draw.offset
                || exists edge: Edge :: edge != Above && u.position == draw.offset.Add(EdgeShift(m.canvas, edge)))
  {
    var side := DrawnSide(draw.side);
    var ufo := Ufo(Shifted(m.canvas, draw.offset, SwitchEdge(side)), ufoShootFrequency, None);
    m.(ufos := m.ufos + [ufo])
  }

  /** As written, a quarter of the draws leave the UFO unshifted, near the
      canvas's top-left corner, and the upward shift is never chosen. */
  lemma CreateUfoAsWrittenMissesEdges(m: SpritesManager, ufoShootFrequency: real, offset: Vec2, u: real)
    requires IsUnit(u)
    ensures SwitchEdge(DrawnSide(0.0)) == None
    ensures CreateUfoAsWritten(m, ufoShootFrequency, UfoDraw(0.0, offset)).ufos[|m.ufos|].position == offset
    ensures SwitchEdge(DrawnSide(u)) != Some(Above)
  {
  }

  /** createUfo with the side numbered 1 to 4, as the switch expects: every new
      UFO's random vector is shifted by one canvas width or height to the
      right, left, down or up. */
  function CreateUfo(m: SpritesManager, ufoShootFrequency: real, draw: UfoDraw): (r: SpritesManager)
    requires IsUnit(draw.side)
    ensures r == m.(ufos := r.ufos)
    ensures |r.ufos| == |m.ufos| + 1 && r.ufos[..|m.ufos|] == m.ufos
    ensures var u := r.ufos[|m.ufos|];
            && u.shootFrequency == ufoShootFrequency && u.target == None
            && exists edge: Edge :: u.position == draw.offset.Add(EdgeShift(m.canvas, edge))
  {
    var side := DrawnSide(draw.side) + 1;
    var edge := SwitchEdge(side);
    assert edge.Some?;
    var ufo := Ufo(Shifted(m.canvas, draw.offset, edge), ufoShootFrequency, None);
    m.(ufos := m.ufos + [ufo])
  }

  /** With the corrected numbering each edge is chosen by a quarter of the draws. */
  lemma CreateUfoReachesEveryEdge(m: SpritesManager, ufoShootFrequency: real, offset: Vec2, edge: Edge)
    ensures exists u :: (IsUnit(u) &&
      CreateUfo(m, ufoShootFrequency, UfoDraw(u, offset)).ufos[|m.ufos|].position == offset.Add(EdgeShift(m.canvas, edge)))
  {
    var u := match edge
      case Right => 0.0
      case Left => 0.25
      case Below => 0.5
      case Above => 0.75;
    assert Portion(u, 4.0) == 4.0 * u;
    assert SwitchEdge(DrawnSide(u) + 1) == Some(edge);
    assert CreateUfo(m, ufoShootFrequency, UfoDraw(u, offset)).ufos[|m.ufos|].position == offset.Add(EdgeShift(m.canvas, edge));
  }

  /** getAsteroidsCount: how many asteroids are on the field. */
  function AsteroidsCount(m: SpritesManager): (n: nat)
    ensures n == |m.asteroids| && (n == 0 <==> m.asteroids == [])
  {
    |m.asteroids|
  }

  /** getUfosCount: how many UFOs are flying. */
  function UfosCount(m: SpritesManager): (n: nat)
    ensures n == |m.ufos| && (n == 0 <==> m.ufos == [])
  {
    |m.ufos|
  }

  /** reset: asteroids, ship fragments and UFOs go and both counters restart
      at zero; the ship, explosions and the UFO timer stay. */
  function Reset(m: SpritesManager): (r: SpritesManager)
    ensures AsteroidsCount(r) == 0 && UfosCount(r) == 0 && r.shipFragments == []
    ensures r.countAsteroidsHit == Count(0) && r.countUfosHit == Count(0)
    ensures r.ship == m.ship && r.explosions == m.explosions && r.createUfoInterval == m.createUfoInterval
    ensures r.ufoShootFrequency == m.ufoShootFrequency && r.canvas == m.canvas
    ensures CountersSet(r)
  {
    m.(asteroids := [], shipFragments := [], ufos := [], countAsteroidsHit := Count(0), countUfosHit := Count(0))
  }

  /** stopLevel: the UFO timer is dropped, the shoot frequency zeroed and the
      UFOs cleared; asteroids, ship, fragments, explosions and counters stay. */
  function StopLevel(m: SpritesManager): (r: SpritesManager)
    ensures r.createUfoInterval == None && r.ufoShootFrequency == 0.0 && UfosCount(r) == 0
    ensures r == m.(createUfoInterval := None, ufoShootFrequency := 0.0, ufos := [])
    ensures CountersSet(m) ==> CountersSet(r)
  {
    m.(createUfoInterval := None, ufoShootFrequency := 0.0, ufos := [])
  }

  /** Reset and stopLevel touch overlapping state in compatible ways: in
      either order they give the same manager, and each is idempotent. */
  lemma ResetStopLevelCommute(m: SpritesManager)
    ensures Reset(StopLevel(m)) == StopLevel(Reset(m))
    ensures Reset(Reset(m)) == Reset(m) && StopLevel(StopLevel(m)) == StopLevel(m)
  {
  }

  /** startLevel: the shoot frequency is recorded, the manager reset, a ship
      placed at the centre, a field of `countAsteroids` asteroids spawned and a
      UFO timer started with a period within 5000 of `ufoCreateFrequency`.
      Explosions carry over. */
  method StartLevel(m: SpritesManager, countAsteroids: int, ufoCreateFrequency: real, ufoShootFrequency: real,
                    draws: seq<PatatoidDraw>, period: real) returns (r: SpritesManager)
    requires countAsteroids <= |draws| && ValidPatatoidDraws(draws) && IsUnit(period)
    ensures r.ship == Alive(Ship(Center(m.canvas), IDLE)) && !ShipHit(r)
    ensures r.shipFragments == [] && UfosCount(r) == 0 && r.explosions == m.explosions
    ensures AsteroidsCount(r) == (if countAsteroids < 0 then 0 else countAsteroids)
    ensures forall a :: a in r.asteroids ==> IsSpawned(a)
    ensures r.countAsteroidsHit == Count(0) && r.countUfosHit == Count(0)
    ensures r.ufoShootFrequency == ufoShootFrequency
    ensures r.createUfoInterval.Some?
    ensures ufoCreateFrequency - VARIABILITY_IN_CREATING_UFOS <= r.createUfoInterval.value.period
    ensures r.createUfoInterval.value.period < ufoCreateFrequency + VARIABILITY_IN_CREATING_UFOS
    ensures r.canvas == m.canvas && CountersSet(r)
  {
    r := m.(ufoShootFrequency := ufoShootFrequency);
    r := Reset(r);
    r := r.(ship := Alive(Ship(Center(r.canvas), IDLE)));
    r := CreateAsteroids(r, countAsteroids, draws);
    var p := UniformReal(ufoCreateFrequency - VARIABILITY_IN_CREATING_UFOS,
                         ufoCreateFrequency + VARIABILITY_IN_CREATING_UFOS, period);
    r := r.(createUfoInterval := Some(Interval(p)));
  }

  /** The keys either handler reacts to. */
  predicate IsControlKey(keyCode: int) {
    keyCode == LEFT_ARROW || keyCode == RIGHT_ARROW || keyCode == UP_ARROW || keyCode == SPACE
  }

  /** keyPressed: with a live ship, the arrows turn it or start the thrust and
      space shoots; with no ship, or for any other key, nothing changes. */
  function KeyPressed(m: SpritesManager, keyCode: int): (r: SpritesManager)
    ensures !m.ship.Alive? || !IsControlKey(keyCode) ==> r == m
    ensures r.ship.Alive? == m.ship.Alive?
    ensures m.ship.Alive? ==> r == m.(ship := Alive(m.ship.ship.(controls := r.ship.ship.controls)))
    ensures m.ship.Alive? && keyCode == LEFT_ARROW ==>
              r.ship.ship.controls == m.ship.ship.controls.(rotation := -TURN_RATE)
    ensures m.ship.Alive? && keyCode == RIGHT_ARROW ==>
              r.ship.ship.controls == m.ship.ship.controls.(rotation := TURN_RATE)
    ensures m.ship.Alive? && keyCode == UP_ARROW ==>
              r.ship.ship.controls == m.ship.ship.controls.(boost := true)
    ensures m.ship.Alive? && keyCode == SPACE ==>
              r.ship.ship.controls == m.ship.ship.controls.(shots := m.ship.ship.controls.shots + 1)
  {
    match m.ship
    case Alive(ship) =>
      var c := ship.controls;
      var c' :=
        if keyCode == LEFT_ARROW then c.(rotation := -TURN_RATE)
        else if keyCode == RIGHT_ARROW then c.(rotation := TURN_RATE)
        else if keyCode == UP_ARROW then c.(boost := true)
        else if keyCode == SPACE then c.(shots := c.shots + 1)
        else c;
      m.(ship := Alive(ship.(controls := c')))
    case _ => m
  }

  /** keyReleased: with a live ship, the up arrow stops the thrust and either
      side arrow stops the turning; otherwise nothing changes. */
  function KeyReleased(m: SpritesManager, keyCode: int): (r: SpritesManager)
    ensures !m.ship.Alive? || !IsControlKey(keyCode) || keyCode == SPACE ==> r == m
    ensures r.ship.Alive? == m.ship.Alive?
    ensures m.ship.Alive? ==> r == m.(ship := Alive(m.ship.ship.(controls := r.ship.ship.controls)))
    ensures m.ship.Alive? && keyCode == UP_ARROW ==>
              r.ship.ship.controls == m.ship.ship.controls.(boost := false)
    ensures m.ship.Alive? && (keyCode == LEFT_ARROW || keyCode == RIGHT_ARROW) ==>
              r.ship.ship.controls == m.ship.ship.controls.(rotation := 0.0)
  {
    match m.ship
    case Alive(ship) =>
      var c := ship.controls;
      var c' :=
        if keyCode == UP_ARROW then c.(boost := false)
        else if keyCode == LEFT_ARROW || keyCode == RIGHT_ARROW then c.(rotation := 0.0)
        else c;
      m.(ship := Alive(ship.(controls := c')))
    case _ => m
  }

  /** shipHit: the ship field is null, that is, the ship was destroyed. Before
      the first level the field is undefined, which is not a hit. */
  function ShipHit(m: SpritesManager): (hit: bool)
    ensures hit <==> m.ship.Destroyed?
    ensures hit ==> !m.ship.Alive? && !m.ship.Unset?
  {
    m.ship == Destroyed
  }

  /** Pressing then releasing a steering key from rest returns to the state
      before the press; no key does anything once the ship is gone. */
  lemma PressReleaseRestores(m: SpritesManager, keyCode: int)
    requires keyCode == LEFT_ARROW || keyCode == RIGHT_ARROW || keyCode == UP_ARROW
    requires m.ship.Alive? ==> Resting(m.ship.ship.controls)
    ensures KeyReleased(KeyPressed(m, keyCode), keyCode) == m
    ensures ShipHit(m) ==> KeyPressed(m, keyCode) == m
  {
  }
}

=== FILE: ts_update.dfy ===
/** The TypeScript sprites manager's per-frame update. Each collection is
    filtered front to back: the callback steps the element, then, only while
    a ship is alive, tests it against the ship and its lasers. A collision
    nulls the ship, so every later callback in the frame only steps. Each pass
    is proved against a head-recursive reference that reads the same rule off
    the front of the sequence. */
module TsFrame {
  import opened Geometry
  import opened Random
  import opened TsActors
  import opened TsManager

  /** Each asteroid or fragment takes its own step. */
  function StepAll(phys: Physics, s: seq<Patatoid>): (r: seq<Patatoid>)
    ensures |r| == |s|
  {
    if s == [] then [] else [phys.patatoidStep(s[0])] + StepAll(phys, s[1..])
  }

  /** The counter after `k` increments. */
  function Increased(c: Counter, k: nat): (r: Counter)
    ensures c.Count? ==> r == Count(c.n + k)
    ensures k == 0 ==> r == c
  {
    if k == 0 then c else Bump(Increased(c, k - 1))
  }

  /** `a` is `b` with some elements left out, the rest in their order. */
  ghost predicate Embeds<T>(a: seq<T>, b: seq<T>)
    decreases |b|
  {
    if a == [] then true
    else if b == [] then false
    else (a[0] == b[0] && Embeds(a[1..], b[1..])) || Embeds(a, b[1..])
  }

  // ---------------------------------------------------------------------------
  // Asteroid pass

  /** What the asteroid filter leaves: the asteroids kept, the children
      collected for appending, the explosions pushed, the hits counted and the
      ship field afterwards. */
  datatype AsteroidSweep = AsteroidSweep(
    kept: seq<Patatoid>,
    born: seq<Patatoid>,
    blasts: seq<Explosion>,
    hits: nat,
    ship: ShipSlot)

  /** The asteroid filter read front to back: step the asteroid; with a live
      ship, a laser hit drops it and collects its children, or pushes an
      explosion when it has none; otherwise a collision nulls the ship. */
  function SweepAsteroids(phys: Physics, ship: ShipSlot, s: seq<Patatoid>): AsteroidSweep
    decreases |s|
  {
    if s == [] then AsteroidSweep([], [], [], 0, ship)
    else
      var a := phys.patatoidStep(s[0]);
      if ship.Alive? && phys.shipLasersHitAsteroid(ship.ship, a) then
        var rest := SweepAsteroids(phys, ship, s[1..]);
        var children := phys.breakUp(a);
        var blast := if children == [] then [NewExplosion(a.position)] else [];
        rest.(born := children + rest.born, blasts := blast + rest.blasts, hits := rest.hits + 1)
      else
        var next := if ship.Alive? && phys.shipCollidesAsteroid(ship.ship, a) then Destroyed else ship;
        var rest := SweepAsteroids(phys, next, s[1..]);
        rest.(kept := [a] + rest.kept)
  }

  /** Every asteroid is either kept or counted as a hit, each hit adds at most
      one explosion, a ship that is not alive makes the filter a plain step,
      and the ship can only go from alive to destroyed. */
  lemma {:induction false} SweepAsteroidsAccounting(phys: Physics, ship: ShipSlot, s: seq<Patatoid>)
    ensures var o := SweepAsteroids(phys, ship, s);
            && |o.kept| + o.hits == |s|
            && |o.blasts| <= o.hits
            && (!ship.Alive? ==> o == AsteroidSweep(StepAll(phys, s), [], [], 0, ship))
            && (o.ship == ship || (ship.Alive? && o.ship == Destroyed))
    decreases |s|
  {
    if s != [] {
      var a := phys.patatoidStep(s[0]);
      if ship.Alive? && phys.shipLasersHitAsteroid(ship.ship, a) {
        SweepAsteroidsAccounting(phys, ship, s[1..]);
      } else {
        var next := if ship.Alive? && phys.shipCollidesAsteroid(ship.ship, a) then Destroyed else ship;
        SweepAsteroidsAccounting(phys, next, s[1..]);
      }
    }
  }

  /** Surviving asteroids keep their relative order. */
  lemma {:induction false} SweepAsteroidsKeepsOrder(phys: Physics, ship: ShipSlot, s: seq<Patatoid>)
    ensures Embeds(SweepAsteroids(phys, ship, s).kept, StepAll(phys, s))
    decreases |s|
  {
    if s != [] {
      var a := phys.patatoidStep(s[0]);
      var stepped := StepAll(phys, s);
      assert stepped[0] == a && stepped[1..] == StepAll(phys, s[1..]);
      if ship.Alive? && phys.shipLasersHitAsteroid(ship.ship, a) {
        SweepAsteroidsKeepsOrder(phys, ship, s[1..]);
        EmbedsSkip(SweepAsteroids(phys, ship, s).kept, stepped);
      } else {
        var next := if ship.Alive? && phys.shipCollidesAsteroid(ship.ship, a) then Destroyed else ship;
        SweepAsteroidsKeepsOrder(phys, next, s[1..]);
        var kept := SweepAsteroids(phys, ship, s).kept;
        assert kept[0] == a && kept[1..] == SweepAsteroids(phys, next, s[1..]).kept;
      }
    }
  }

  lemma EmbedsSkip<T>(a: seq<T>, b: seq<T>)
    requires b != [] && Embeds(a, b[1..])
    ensures Embeds(a, b)
  {
  }

  /** The state of the asteroid filter once the asteroids before `index` have
      been visited: `kept` and `born` hold what is settled, `hits` counts the
      hits so far, and the rest of the reference reading accounts for the
      remainder. */
  ghost predicate AsteroidsFiltered(phys: Physics, m: SpritesManager, index: nat, kept: seq<Patatoid>,
                                    born: seq<Patatoid>, hits: nat, s: SpritesManager)
    requires index <= |m.asteroids|
  {
    var all := SweepAsteroids(phys, m.ship, m.asteroids);
    var rest := SweepAsteroids(phys, s.ship, m.asteroids[index..]);
    && kept + rest.kept == all.kept
    && born + rest.born == all.born
    && s.explosions + rest.blasts == m.explosions + all.blasts
    && hits + rest.hits == all.hits
    && s.countAsteroidsHit == Increased(m.countAsteroidsHit, hits)
    && rest.ship == all.ship
    && (s.ship == m.ship || (m.ship.Alive? && s.ship == Destroyed))
    && s.shipFragments == (if m.ship.Alive? && s.ship.Destroyed? then phys.shipBreakUp(m.ship.ship) else m.shipFragments)
    && s == m.(explosions := s.explosions, countAsteroidsHit := s.countAsteroidsHit, ship := s.ship,
               shipFragments := s.shipFragments)
  }

  /** One callback of the asteroid filter, on the asteroid at `index`. */
  method VisitAsteroid(phys: Physics, m: SpritesManager, index: nat, kept: seq<Patatoid>, born: seq<Patatoid>,
                       hits: nat, s: SpritesManager)
    returns (kept': seq<Patatoid>, born': seq<Patatoid>, hits': nat, r: SpritesManager)
    requires index < |m.asteroids|
    requires AsteroidsFiltered(phys, m, index, kept, born, hits, s)
    ensures AsteroidsFiltered(phys, m, index + 1, kept', born', hits', r)
  {
    ghost var tail := m.asteroids[index..];
    assert tail[0] == m.asteroids[index] && tail[1..] == m.asteroids[index + 1..];
    ghost var rest := SweepAsteroids(phys, s.ship, tail);
    var asteroid := phys.patatoidStep(m.asteroids[index]);
    kept', born', hits', r := kept, born, hits, s;
    if s.ship.Alive? && phys.shipLasersHitAsteroid(s.ship.ship, asteroid) {
      ghost var after := SweepAsteroids(phys, s.ship, m.asteroids[index + 1..]);
      var children := phys.breakUp(asteroid);
      if |children| > 0 {
        born' := born + children;
        assert born + rest.born == born' + after.born;
      } else {
        r := r.(explosions := r.explosions + [NewExplosion(asteroid.position)]);
        assert s.explosions + rest.blasts == r.explosions + after.blasts;
      }
      r := r.(countAsteroidsHit := Bump(r.countAsteroidsHit));
      hits' := hits + 1;
    } else {
      if s.ship.Alive? && phys.shipCollidesAsteroid(s.ship.ship, asteroid) {
        r := r.(shipFragments := phys.shipBreakUp(s.ship.ship), ship := Destroyed);
      }
      ghost var after := SweepAsteroids(phys, r.ship, m.asteroids[index + 1..]);
      kept' := kept + [asteroid];
      assert kept + rest.kept == kept' + after.kept;
    }
  }

  /** The asteroid filter followed by the appending of the collected
      children. */
  method AsteroidPass(m: SpritesManager, phys: Physics) returns (r: SpritesManager)
    ensures var o := SweepAsteroids(phys, m.ship, m.asteroids);
            && r.asteroids == o.kept + o.born
            && r.explosions == m.explosions + o.blasts
            && r.countAsteroidsHit == Increased(m.countAsteroidsHit, o.hits)
            && r.ship == o.ship
    ensures r.shipFragments == if m.ship.Alive? && r.ship.Destroyed? then phys.shipBreakUp(m.ship.ship) else m.shipFragments
    ensures r == m.(asteroids := r.asteroids, explosions := r.explosions, countAsteroidsHit := r.countAsteroidsHit,
                    ship := r.ship, shipFragments := r.shipFragments)
  {
    var kept: seq<Patatoid> := [];
    var born: seq<Patatoid> := [];
    var hits: nat := 0;
    r := m;
    var index := 0;
    assert m.asteroids[0..] == m.asteroids;
    while index < |m.asteroids|
      invariant index <= |m.asteroids|
      invariant AsteroidsFiltered(phys, m, index, kept, born, hits, r)
    {
      kept, born, hits, r := VisitAsteroid(phys, m, index, kept, born, hits, r);
      index := index + 1;
    }
    assert m.asteroids[index..] == [];
    r := r.(asteroids := kept + born);
  }

  // ---------------------------------------------------------------------------
  // UFO pass

  /** The ship position a UFO is told about: a copy of the live ship's
      position, or nothing. */
  function Target(ship: ShipSlot): Option<Vec2> {
    if ship.Alive? then Some(ship.ship.position) else None
  }

  /** UFOs stepped with no ship to aim at. */
  function Drift(phys: Physics, s: seq<Ufo>): (r: seq<Ufo>)
    ensures |r| == |s|
  {
    if s == [] then [] else [phys.ufoStep(s[0], None)] + Drift(phys, s[1..])
  }

  /** What the UFO filter leaves: the UFOs kept, the explosions pushed, the
      hits counted and the ship field afterwards. */
  datatype UfoSweep = UfoSweep(kept: seq<Ufo>, blasts: seq<Explosion>, hits: nat, ship: ShipSlot)

  /** The UFO filter read front to back: step the UFO towards the ship; with a
      live ship, a laser hit drops it and pushes an explosion; otherwise a body
      contact or a UFO laser nulls the ship. */
  function SweepUfos(phys: Physics, ship: ShipSlot, s: seq<Ufo>): UfoSweep
    decreases |s|
  {
    if s == [] then UfoSweep([], [], 0, ship)
    else
      var u := phys.ufoStep(s[0], Target(ship));
      if ship.Alive? && phys.shipLasersHitUfo(ship.ship, u) then
        var rest := SweepUfos(phys, ship, s[1..]);
        rest.(blasts := [NewExplosion(u.position)] + rest.blasts, hits := rest.hits + 1)
      else
        var next :=
          if ship.Alive? && (phys.shipCollidesUfo(ship.ship, u) || phys.ufoLasersHit(u, ship.ship)) then Destroyed
          else ship;
        var rest := SweepUfos(phys, next, s[1..]);
        rest.(kept := [u] + rest.kept)
  }

  /** Each UFO is either kept or counted as a hit with exactly one explosion;
      a ship that is not alive removes and counts nothing. */
  lemma {:induction false} SweepUfosAccounting(phys: Physics, ship: ShipSlot, s: seq<Ufo>)
    ensures var o := SweepUfos(phys, ship, s);
            && |o.kept| + o.hits == |s|
            && |o.blasts| == o.hits
            && (!ship.Alive? ==> o == UfoSweep(Drift(phys, s), [], 0, ship))
            && (o.ship == ship || (ship.Alive? && o.ship == Destroyed))
    decreases |s|
  {
    if s != [] {
      var u := phys.ufoStep(s[0], Target(ship));
      if ship.Alive? && phys.shipLasersHitUfo(ship.ship, u) {
        SweepUfosAccounting(phys, ship, s[1..]);
      } else {
        var next :=
          if ship.Alive? && (phys.shipCollidesUfo(ship.ship, u) || phys.ufoLasersHit(u, ship.ship)) then Destroyed
          else ship;
        SweepUfosAccounting(phys, next, s[1..]);
      }
    }
  }

  ghost predicate UfosFiltered(phys: Physics, m: SpritesManager, index: nat, kept: seq<Ufo>, hits: nat,
                               s: SpritesManager)
    requires index <= |m.ufos|
  {
    var all := SweepUfos(phys, m.ship, m.ufos);
    var rest := SweepUfos(phys, s.ship, m.ufos[index..]);
    && kept + rest.kept == all.kept
    && s.explosions + rest.blasts == m.explosions + all.blasts
    && hits + rest.hits == all.hits
    && s.countUfosHit == Increased(m.countUfosHit, hits)
    && rest.ship == all.ship
    && (s.ship == m.ship || (m.ship.Alive? && s.ship == Destroyed))
    && s.shipFragments == (if m.ship.Alive? && s.ship.Destroyed? then phys.shipBreakUp(m.ship.ship) else m.shipFragments)
    && s == m.(explosions := s.explosions, countUfosHit := s.countUfosHit, ship := s.ship,
               shipFragments := s.shipFragments)
  }

  /** One callback of the UFO filter, on the UFO at `index`. */
  method VisitUfo(phys: Physics, m: SpritesManager, index: nat, kept: seq<Ufo>, hits: nat, s: SpritesManager)
    returns (kept': seq<Ufo>, hits': nat, r: SpritesManager)
    requires index < |m.ufos|
    requires UfosFiltered(phys, m, index, kept, hits, s)
    ensures UfosFiltered(phys, m, index + 1, kept', hits', r)
  {
    ghost var tail := m.ufos[index..];
    assert tail[0] == m.ufos[index] && tail[1..] == m.ufos[index + 1..];
    ghost var rest := SweepUfos(phys, s.ship, tail);
    var ufo := phys.ufoStep(m.ufos[index], Target(s.ship));
    kept', hits', r := kept, hits, s;
    if s.ship.Alive? && phys.shipLasersHitUfo(s.ship.ship, ufo) {
      ghost var after := SweepUfos(phys, s.ship, m.ufos[index + 1..]);
      r := r.(countUfosHit := Bump(r.countUfosHit), explosions := r.explosions + [NewExplosion(ufo.position)]);
      assert s.explosions + rest.blasts == r.explosions + after.blasts;
      hits' := hits + 1;
    } else {
      if s.ship.Alive? && (phys.shipCollidesUfo(s.ship.ship, ufo) || phys.ufoLasersHit(ufo, s.ship.ship)) {
        r := r.(shipFragments := phys.shipBreakUp(s.ship.ship), ship := Destroyed);
      }
      ghost var after := SweepUfos(phys, r.ship, m.ufos[index + 1..]);
      kept' := kept + [ufo];
      assert kept + rest.kept == kept' + after.kept;
    }
  }

  /** The UFO filter. */
  method UfoPass(m: SpritesManager, phys: Physics) returns (r: SpritesManager)
    ensures var o := SweepUfos(phys, m.ship, m.ufos);
            && r.ufos == o.kept
            && r.explosions == m.explosions + o.blasts
            && r.countUfosHit == Increased(m.countUfosHit, o.hits)
            && r.ship == o.ship
    ensures r.shipFragments == if m.ship.Alive? && r.ship.Destroyed? then phys.shipBreakUp(m.ship.ship) else m.shipFragments
    ensures r == m.(ufos := r.ufos, explosions := r.explosions, countUfosHit := r.countUfosHit,
                    ship := r.ship, shipFragments := r.shipFragments)
  {
    var kept: seq<Ufo> := [];
    var hits: nat := 0;
    r := m;
    var index := 0;
    assert m.ufos[0..] == m.ufos;
    while index < |m.ufos|
      invariant index <= |m.ufos|
      invariant UfosFiltered(phys, m, index, kept, hits, r)
    {
      kept, hits, r := VisitUfo(phys, m, index, kept, hits, r);
      index := index + 1;
    }
    assert m.ufos[index..] == [];
    r := r.(ufos := kept);
  }

  // ---------------------------------------------------------------------------
  // Explosion pass

  /** The explosion filter read front to back: each explosion is updated and
      kept, advanced, exactly when its update reports it still showing. */
  function Lasting(phys: Physics, s: seq<Explosion>): seq<Explosion> {
    if s == [] then []
    else
      var t := phys.explosionTick(s[0]);
      (if t.alive then [t.next] else []) + Lasting(phys, s[1..])
  }

  /** An explosion survives the filter exactly when it is the advanced form
      of one whose update reported it still showing. */
  lemma {:induction false} LastingExactly(phys: Physics, s: seq<Explosion>)
    ensures |Lasting(phys, s)| <= |s|
    ensures forall e :: e in Lasting(phys, s) <==>
              exists i :: 0 <= i < |s| && phys.explosionTick(s[i]).alive && phys.explosionTick(s[i]).next == e
  {
    if s != [] {
      LastingExactly(phys, s[1..]);
      var t := phys.explosionTick(s[0]);
      forall e
        ensures e in Lasting(phys, s) <==>
                  exists i :: 0 <= i < |s| && phys.explosionTick(s[i]).alive && phys.explosionTick(s[i]).next == e
      {
        if exists i :: 0 <= i < |s| && phys.explosionTick(s[i]).alive && phys.explosionTick(s[i]).next == e {
          var i :| 0 <= i < |s| && phys.explosionTick(s[i]).alive && phys.explosionTick(s[i]).next == e;
          if i > 0 {
            assert s[1..][i - 1] == s[i];
          }
        }
        if e in Lasting(phys, s[1..]) {
          var i :| 0 <= i < |s[1..]| && phys.explosionTick(s[1..][i]).alive && phys.explosionTick(s[1..][i]).next == e;
          assert s[i + 1] == s[1..][i];
        }
      }
    }
  }

  /** The explosion filter. */
  method ExplosionPass(m: SpritesManager, phys: Physics) returns (r: SpritesManager)
    ensures r.explosions == Lasting(phys, m.explosions)
    ensures r == m.(explosions := r.explosions)
  {
    var explosions: seq<Explosion> := [];
    var index := 0;
    assert m.explosions[0..] == m.explosions;
    while index < |m.explosions|
      invariant index <= |m.explosions|
      invariant explosions + Lasting(phys, m.explosions[index..]) == Lasting(phys, m.explosions)
    {
      ghost var tail := m.explosions[index..];
      assert tail[0] == m.explosions[index] && tail[1..] == m.explosions[index + 1..];
      var t := phys.explosionTick(m.explosions[index]);
      if t.alive {
        explosions := explosions + [t.next];
      }
      assert explosions + Lasting(phys, m.explosions[index + 1..]) == Lasting(phys, m.explosions);
      index := index + 1;
    }
    assert m.explosions[index..] == [];
    r := m.(explosions := explosions);
  }

  // ---------------------------------------------------------------------------
  // The whole frame

  /** The ship steps if it is alive; otherwise the fragments step. */
  function FrameShip(m: SpritesManager, phys: Physics): (r: SpritesManager)
    ensures m.ship.Alive? ==> r == m.(ship := Alive(phys.shipStep(m.ship.ship)))
    ensures !m.ship.Alive? ==> r == m.(shipFragments := StepAll(phys, m.shipFragments))
  {
    if m.ship.Alive? then m.(ship := Alive(phys.shipStep(m.ship.ship)))
    else m.(shipFragments := StepAll(phys, m.shipFragments))
  }

  /** update: the ship or its fragments step; the asteroid filter runs and the
      collected children are appended unstepped; the UFO filter runs; a UFO is
      spawned when the timer exists and has elapsed (`elapsed` is its answer);
      finally every explosion, including those pushed in this frame, is
      updated and the finished ones dropped. */
  method Update(m: SpritesManager, phys: Physics, elapsed: bool, draw: UfoDraw) returns (r: SpritesManager)
    requires IsUnit(draw.side)
    ensures m.ship.Alive? ==> r.ship == Alive(phys.shipStep(m.ship.ship)) || r.ship == Destroyed
    ensures !m.ship.Alive? ==> r.ship == m.ship
    ensures !m.ship.Alive? ==> r.shipFragments == StepAll(phys, m.shipFragments)
    ensures m.ship.Alive? && r.ship.Alive? ==> r.shipFragments == m.shipFragments
    ensures m.ship.Alive? && r.ship == Destroyed ==> r.shipFragments == phys.shipBreakUp(phys.shipStep(m.ship.ship))
    ensures var a := SweepAsteroids(phys, FrameShip(m, phys).ship, m.asteroids);
            && r.asteroids == a.kept + a.born
            && Embeds(a.kept, StepAll(phys, m.asteroids))
            && r.countAsteroidsHit == Increased(m.countAsteroidsHit, a.hits)
            && |a.kept| + a.hits == |m.asteroids|
    ensures !m.ship.Alive? ==> r.asteroids == StepAll(phys, m.asteroids)
    ensures !m.ship.Alive? ==> r.countAsteroidsHit == m.countAsteroidsHit && r.countUfosHit == m.countUfosHit
    ensures |r.ufos| <= |m.ufos| + 1
    ensures m.createUfoInterval.Some? && elapsed ==>
              r.ufos != [] && r.ufos[|r.ufos| - 1] == CreateUfoAsWritten(m.(ufos := []), m.ufoShootFrequency, draw).ufos[0]
    ensures !(m.createUfoInterval.Some? && elapsed) ==> |r.ufos| <= |m.ufos|
    ensures !m.ship.Alive? ==> |r.ufos| == |m.ufos| + (if m.createUfoInterval.Some? && elapsed then 1 else 0)
    ensures !m.ship.Alive? ==> r.ufos[..|m.ufos|] == Drift(phys, m.ufos)
    ensures |r.explosions| <= |m.explosions| + |m.asteroids| + |m.ufos|
    ensures CountersSet(m) ==> CountersSet(r)
    ensures ShipHit(m) ==> ShipHit(r)
    ensures r.createUfoInterval == m.createUfoInterval && r.ufoShootFrequency == m.ufoShootFrequency
    ensures r.canvas == m.canvas
  {
    var s := FrameShip(m, phys);
    SweepAsteroidsAccounting(phys, s.ship, m.asteroids);
    SweepAsteroidsKeepsOrder(phys, s.ship, m.asteroids);
    ghost var a := SweepAsteroids(phys, s.ship, m.asteroids);
    s := AsteroidPass(s, phys);
    SweepUfosAccounting(phys, s.ship, s.ufos);
    ghost var u := SweepUfos(phys, s.ship, s.ufos);
    ghost var born := s.explosions;
    s := UfoPass(s, phys);
    if s.createUfoInterval.Some? && elapsed {
      s := CreateUfoAsWritten(s, s.ufoShootFrequency, draw);
    }
    LastingExactly(phys, s.explosions);
    r := ExplosionPass(s, phys);
    assert |s.explosions| == |m.explosions| + |a.blasts| + |u.blasts|;
  }
}
